=== FILE: README.md ===
# Tournament standings engine — a Dafny model

The tournament website keeps four round-robin groups (A–D). Each group has a
roster of players and a collection of recorded matches. Three scripts render
the group standings, and each carries its own copy of one algorithm:

- the four-group admin page (`src/scripts/adminGrupos.ts`);
- the public groups page (`src/scripts/grupos.ts`);
- the legacy single-group admin page (`src/scripts/administraciongrupos.ts`).

The algorithm has three steps:

1. Zero the four derived counters (played, wins, losses, points) of every
   roster player.
2. Fold the matches over the roster in the order the store lists them. A
   match counts only when both players are found on the roster. Both players
   play one more game. Player1 gets the win and 3 points when `winner` equals
   player1's id. In every other case player2 gets them.
3. Stably sort the roster by points, highest first, and number the rows
   1..n.

The model states this engine once (module `Engine`) and gives it an
independent reference definition: each counter as a sum of per-match
credits. It proves the two agree. It also proves:

- conservation: 2 games, 1 win, 1 loss and 3 points per resolved match;
- order independence: the result does not depend on the store's listing order;
- idempotence of recomputation;
- that the sort is the unique stable descending sort.

Around the engine the model covers:

- the admin commands (save a roster, record a match, reset matches, clear
  the group, delete a match), as transitions of a `GroupState` with their
  validation errors;
- the avatar chosen for a new roster entry;
- the match-history lists;
- the public page's in-place table: rows keyed by player id, moved to the
  end in standings order, and the rank-change offsets remembered between
  passes;
- the public page's "no group" placeholder and its change listeners;
- the legacy page's copy of the engine and its name lookup.

Modules, in dependency order:

- `Tournament` (types.dfy): records and lookups.
- `Ranking` (ranking.dfy): the stable sort.
- `Engine` (engine.dfy): the standings engine.
- `MatchHistory` (history.dfy): the match-history lists.
- `TableRows` (table_rows.dfy): reordering rows by key.
- `PublicGroups` (public_view.dfy): the public page.
- `AdminGroups` (admin_commands.dfy): the four-group admin page.
- `LegacyAdmin` (legacy_admin.dfy): the legacy admin page.

Two behaviours of `grupos.ts` follow from the code itself, and the model
keeps them as written.

- The roster listener hides the "no group" placeholder when players arrive
  (grupos.ts:112-113). That step only matters if the listener can run while
  the placeholder shows. But the placeholder branch (lines 70-78) returns at
  line 77, before any listener is attached (lines 105-131). So a group that
  is empty at load never goes live. This is Finding 1 below.
- Only the save command requires distinct ids (adminGrupos.ts:148). The
  engine tolerates repeated ids because `find` stops at the first match: a
  later entry repeating an id is never found and stays at zero
  (`Engine.DuplicatesStayAtZero`).

## Model

| member | source | states |
|---|---|---|
| Tournament.FindIndex | src/scripts/adminGrupos.ts:341-342 | the lookup `find` performs: the index returned holds the id, no earlier entry holds it, and None exactly when the id is absent |
| Tournament.PlayersOf | src/scripts/grupos.ts:127 | `players ?? []` of a present group document: the stored list, or the empty roster when the field is absent |
| Tournament.DistinctIdsAreFirst | src/scripts/adminGrupos.ts:148 | with pairwise different ids (what the save command enforces) every roster position is the one a lookup by its id lands on |
| Tournament.DistinctCount | src/scripts/adminGrupos.ts:148 | `new Set(ids).size` never exceeds the number of entries, and equals it exactly when no id repeats |
| Ranking.SortByPoints | src/scripts/adminGrupos.ts:359 | the sorted roster is a permutation of the input, points never increase down the list, and for every points value the players with that value keep their input order (stability) |
| Ranking.SortKeepsOrdered | src/scripts/grupos.ts:229-231 | a list already ordered by points is left unchanged |
| Ranking.StableOrderIsUnique | src/scripts/administraciongrupos.ts:133 | two lists ordered by points that agree on the order within every points value are equal |
| Ranking.SortIsTheStableSort | src/scripts/grupos.ts:229-231 | any ordering by points descending that keeps the input order within each points value is exactly SortByPoints' result |
| Engine.ZeroCounters | src/scripts/adminGrupos.ts:333-338 | every roster player keeps id, name, photo and position, and has all four counters at 0 |
| Engine.ApplyMatch | src/scripts/adminGrupos.ts:340-357 | one match keeps every player's identity and position, and changes nothing when either player is missing from the roster |
| Engine.ApplyMatchAt | src/scripts/adminGrupos.ts:341-356 | after one match the first entry with an id gains exactly that id's credit from the match, and every other entry is untouched |
| Engine.WinnerAttribution | src/scripts/adminGrupos.ts:345-356 | a resolved match adds one game to both found entries, the win and 3 points to player1's entry only when `winner` equals player1's id (player2's otherwise), and the loss to the other; a self-match lands all four updates on one entry |
| Engine.CountersKeepRoster | src/scripts/grupos.ts:183-208 | recomputing the counters keeps the roster's players, their identities and their order |
| Engine.CountersMatchReference | src/scripts/adminGrupos.ts:331-357 | the fold in collection order gives, at every roster position, the reference value: the first entry with an id carries the sum of all credits to that id, with 3 points per win |
| Engine.CountersAreExpected | src/scripts/grupos.ts:183-208 | the recomputed roster equals the reference definition at every position |
| Engine.DuplicatesStayAtZero | src/scripts/adminGrupos.ts:341-343 | a roster entry repeating an earlier id is never found and keeps all four counters at 0 |
| Engine.PlayersBalanced | src/scripts/adminGrupos.ts:345-356 | every recomputed player has points = 3 × wins and played = wins + losses |
| Engine.ApplyMatchTotals | src/scripts/adminGrupos.ts:343-356 | one resolved match adds 2 games, 1 win, 1 loss and 3 points to the roster totals, and a skipped match adds nothing |
| Engine.Conservation | src/scripts/adminGrupos.ts:340-357 | with K resolved matches the roster totals are 2K games, K wins, K losses and 3K points |
| Engine.IncomingCountersIrrelevant | src/scripts/adminGrupos.ts:333-338 | the counters a roster arrives with do not affect the counters or the standings |
| Engine.RecomputeIsIdempotent | src/scripts/administraciongrupos.ts:107-131 | recomputing from a roster that already carries the engine's counters gives the same counters and the same standings |
| Engine.MatchOrderIrrelevant | src/scripts/adminGrupos.ts:119-122 | two listings of the same match collection in any order give the same counters and the same standings |
| Engine.OrphansChangeNothing | src/scripts/adminGrupos.ts:341-343 | matches naming a player who is not on the roster change no counter, and the number of counted matches is the number of resolved ones |
| Engine.StandingsShape | src/scripts/adminGrupos.ts:340-359 | the standings are a permutation of the recomputed roster, ordered by points with ties in roster order, balanced per player, and with 3 points per resolved match in total |
| Engine.NoMatchesKeepRosterOrder | src/scripts/grupos.ts:229-231 | with no matches the standings are the roster in roster order with all counters at 0 |
| Engine.RankRows | src/scripts/adminGrupos.ts:361-374 | one row per player in list order, the row at position i showing rank i + 1 and that player's name and four counters |
| MatchHistory.NameOf | src/scripts/grupos.ts:287-289 | the name shown for an id is that of the first roster player carrying it, or "Unknown" when none does |
| MatchHistory.NameOfIsResolved | src/scripts/adminGrupos.ts:417-427 | the history names the same player that the standings credit for an id |
| MatchHistory.Reversed | src/scripts/grupos.ts:286 | the copy reversed: same length, element i is element n-1-i of the input |
| MatchHistory.CardOf | src/scripts/grupos.ts:286-320 | a card carries its match's id and game, names both players and the winner by the roster lookup (first holder, else "Unknown"), and highlights a side exactly when `winner` equals that side's id |
| MatchHistory.ShowHistory | src/scripts/grupos.ts:280-290 | the placeholder exactly when there are no matches, otherwise one card per match, in the reverse of the store's listing order |
| MatchHistory.LastListedOnTop | src/scripts/adminGrupos.ts:414-415 | a match listed after all the others appears at the top, and the cards already shown follow unchanged |
| MatchHistory.HighlightMatchesCredit | src/scripts/grupos.ts:307-318 | when the winner is one of the two players, a side is highlighted exactly when the standings credit it with the win |
| MatchHistory.ForeignWinner | src/scripts/grupos.ts:199-207 | a winner naming neither player highlights neither side, yet the standings credit player2 with the win and player1 with the loss |
| TableRows.MoveToEnd | src/scripts/grupos.ts:234-247 | with no row for the player nothing moves; otherwise the first row with that key (the one `querySelector` finds) ends up last, and the other rows keep their order |
| TableRows.Reorder | src/scripts/grupos.ts:233-248 | reordering keeps the rows as a multiset and the table length |
| TableRows.ReorderPartition | src/scripts/grupos.ts:233-248 | with no repeated keys, rows of unlisted players come first in their old order, followed by the listed players' rows in standings order |
| TableRows.ReorderTail | src/scripts/grupos.ts:233-248 | while the unmoved rows hold exactly the remaining keys, repeats included, each key moves its first unmoved row to the end, so the moved rows come out in key order |
| TableRows.ReorderToKeys | src/scripts/grupos.ts:233-248 | when the table holds exactly the listed players' rows, repeated ids included, the rows end up in standings order |
| TableRows.ReorderSelf | src/scripts/grupos.ts:233-248 | reordering an already ordered table by its own keys leaves it as it was, repeated keys included |
| PublicGroups.RecordPositions | src/scripts/grupos.ts:172-176 | every row with an id has its id recorded at an index holding that id, rows without an id are skipped, and entries of earlier passes for ids no longer shown are kept |
| PublicGroups.PositionsOfDistinctRows | src/scripts/grupos.ts:173-176 | with no repeated ids, the recorded index of each row is its position |
| PublicGroups.Offsets | src/scripts/grupos.ts:252-260 | one offset per row, defined exactly for rows with an id that has a recorded position, and then equal to the recorded index minus the row's new index |
| PublicGroups.RowsToReorder | src/scripts/grupos.ts:210-227 | rows are created, one per roster player in roster order, only when the table body is empty; otherwise the existing rows are used |
| PublicGroups.ShowStandings | src/scripts/grupos.ts:162-269 | a pass on a hidden group forgets the remembered positions and animates nothing; a visible pass remembers the current rows' positions on top of the older ones and animates each row by its offset against them; the rows are a rearrangement of the old ones (or of the roster's ids on an empty body), and on a table without repeated ids the rows of players no longer ranked stay in front in their order, followed by the ranked players' rows in standings order; the roster carries the engine's counters and the cells are its ranked standings |
| PublicGroups.DisplayStateIrrelevant | src/scripts/grupos.ts:167-180 | visibility and the table state only steer the display: counters and ranked cells are the engine's standings |
| PublicGroups.FreshTableShowsStandings | src/scripts/grupos.ts:210-248 | on an empty table body the pass leaves one row per roster entry, in standings order, for any roster |
| PublicGroups.SteadyTableShowsStandings | src/scripts/grupos.ts:233-248 | when the rows list exactly the roster's ids, repeats included, the pass leaves them in standings order |
| PublicGroups.OffsetIsMove | src/scripts/grupos.ts:252-261 | for every row already shown, the offset of a visible pass is its old index minus its new index |
| PublicGroups.UnchangedOrderDoesNotAnimate | src/scripts/grupos.ts:257-262 | a visible pass that leaves the rows where they were animates no row |
| PublicGroups.TabClick | src/scripts/grupos.ts:347-352 | a tab click empties the clicked group's remembered positions and keeps every other group's |
| PublicGroups.StaleRowsAsWritten | src/scripts/grupos.ts:210 | Finding 2, as written: a table showing players a and b keeps showing them after the group is cleared |
| PublicGroups.RowsToReorderSynced | src/scripts/grupos.ts:210-227 | corrected: the rows worked on are always a rearrangement of the roster's ids, and rows that already match the roster are kept |
| PublicGroups.ShowStandingsSynced | src/scripts/grupos.ts:162-269 | corrected pass: the rows are exactly the standings' ids in order, for any roster and whatever the table held before |
| PublicGroups.SyncedAgreesOnMatchingRows | src/scripts/grupos.ts:210-248 | where the as-written pass already works (an empty body, or rows that list the roster's players) the corrected pass gives the same result |
| PublicGroups.LoadGroupAsWritten | src/scripts/grupos.ts:70-83 | the placeholder is shown exactly when the document is missing, lacks players or has none; the listeners are attached exactly otherwise |
| PublicGroups.OnRosterNotice | src/scripts/grupos.ts:105-116 | a roster notification is ignored without a listener, for a missing document or for an empty list; otherwise the placeholder goes and the participants are listed |
| PublicGroups.EmptyAtLoadNeverGoesLive | src/scripts/grupos.ts:70-78 | Finding 1, as written: a group empty at load stays on the placeholder whatever rosters are saved afterwards |
| PublicGroups.LoadGroup | src/scripts/grupos.ts:70-116 | corrected load: the same placeholder decision, with the listeners attached in every case |
| PublicGroups.LoadedGroupFollowsRoster | src/scripts/grupos.ts:105-116 | with the listeners attached, the panel shows the participants of the last notification that carried players, and the placeholder is gone |
| PublicGroups.OnMatchesNotice | src/scripts/grupos.ts:118-131 | a match notification draws nothing when the group document is missing; otherwise it draws the ranked standings and the history of `players ?? []` with the as-written pass, so a table that already has rows keeps exactly those rows; the rows follow the standings only on an empty table or one that lists the roster's players |
| PublicGroups.ClearedGroupKeepsRowsAsWritten | src/scripts/grupos.ts:118-131 | Finding 2 through the handler: after the group is cleared, a notification leaves the old rows for players a and b on screen with no ranked players |
| PublicGroups.OnMatchesNoticeSynced | src/scripts/grupos.ts:118-131 | corrected handler: the rows are exactly the standings' ids in order, for any roster and whatever the table held |
| PublicGroups.HandlersAgreeOnMatchingRows | src/scripts/grupos.ts:118-131 | the as-written and corrected handlers agree whenever the table is empty or lists the roster's players |
| AdminGroups.PlayerPhoto | src/scripts/adminGrupos.ts:87-90 | an unregistered id gets the mascot; a registered id gets the avatar base followed by the account number in canonical decimal: digits with no leading zero that read back as the number |
| AdminGroups.DecimalRoundTrip | src/scripts/adminGrupos.ts:89 | the decimal rendering of an account number in the avatar URL parses back to the number |
| AdminGroups.RegisteredPhotosDiffer | src/scripts/adminGrupos.ts:64-81 | two different registered ids never share an avatar |
| AdminGroups.NewRoster | src/scripts/adminGrupos.ts:153-161 | the new roster lists the selected ids in selection order, each with its name, its avatar and all counters at 0 |
| AdminGroups.SaveGroup | src/scripts/adminGrupos.ts:141-166 | the save is accepted exactly when the four selections are filled and pairwise different; an accepted save replaces the roster with the new roster of the selected ids (names, avatars, counters at zero) and leaves the matches alone; a refused one reports an invalid selection |
| AdminGroups.SavedRosterStandings | src/scripts/adminGrupos.ts:153-161 | a freshly saved roster shows as standings in selection order, every player found at their own position |
| AdminGroups.ValidateMatch | src/scripts/adminGrupos.ts:199-210 | the match form is accepted exactly when all four fields are filled and the players differ; the winner is player1 exactly when the selector reads "1", player2 otherwise |
| AdminGroups.AddMatch | src/scripts/adminGrupos.ts:212-215 | adding a match keeps the roster and inserts exactly that match at the listing position the store chooses, the other matches keeping their order |
| AdminGroups.AddedMatchInHistory | src/scripts/adminGrupos.ts:414-427 | the history follows the store's listing, not the timestamp: a match listed at position `at` of n + 1 shows as card n - at, and the old cards keep their order around it |
| AdminGroups.RecordMatch | src/scripts/adminGrupos.ts:183-215 | the add button writes exactly when validation accepts, adds exactly the validated match and keeps the roster |
| AdminGroups.AddMatchCounters | src/scripts/adminGrupos.ts:116-125 | wherever the store lists the new match, the recomputed counters are those of the old collection with the new match applied |
| AdminGroups.RecordedWinnerIsCredited | src/scripts/adminGrupos.ts:204-210 | a match recorded through the form credits exactly the player the selector named |
| AdminGroups.ResetMatches | src/scripts/adminGrupos.ts:271-321 | once confirmed, no match remains and the roster keeps its players and order with every counter at 0; unconfirmed, nothing changes |
| AdminGroups.ResetShowsRosterAtZero | src/scripts/adminGrupos.ts:297-311 | after a reset the standings are the roster in roster order at zero, the same as the old roster with no matches, and a second reset changes nothing |
| AdminGroups.ClearGroup | src/scripts/adminGrupos.ts:223-263 | once confirmed, the roster and the matches are empty; unconfirmed, nothing changes |
| AdminGroups.ClearedGroupShowsNothing | src/scripts/adminGrupos.ts:247-255 | a cleared group shows empty standings and the no-matches placeholder |
| AdminGroups.Without | src/scripts/adminGrupos.ts:465 | the matches kept are exactly those whose id differs from the deleted one |
| AdminGroups.DeleteMatch | src/scripts/adminGrupos.ts:452-471 | without a match id or confirmation nothing changes; otherwise exactly the matches with that id go, and the roster is untouched |
| AdminGroups.DeleteUndoesRecord | src/scripts/adminGrupos.ts:212-215 | deleting a match right after adding it under a fresh id gives the group back as it was |
| AdminGroups.DeleteUnknownIdChangesNothing | src/scripts/adminGrupos.ts:465 | deleting an id no match carries changes nothing |
| AdminGroups.OnRosterSnapshot | src/scripts/adminGrupos.ts:108-114 | a missing document leaves the held roster alone; otherwise the roster becomes `players ?? []`; the matches are kept |
| AdminGroups.AdminTable | src/scripts/adminGrupos.ts:327-375 | one row per roster player |
| AdminGroups.AdminTableShape | src/scripts/adminGrupos.ts:359-374 | row i shows rank i + 1 and the name and four counters of the i-th player of the standings, points never rising down the table, 3 points per win and games = wins + losses in every row, and 3 points per resolved match in the points column |
| AdminGroups.RowPointsAreTotal | src/scripts/adminGrupos.ts:370 | the points column of the rendered table sums the players' points |
| LegacyAdmin.UpdateStandings | src/scripts/administraciongrupos.ts:103-147 | the held roster keeps its players and order and carries the engine's recomputed counters; the table has one row per player, ranks 1..n, and points never rising |
| LegacyAdmin.SameTableAsAdminPage | src/scripts/administraciongrupos.ts:133-146 | the legacy copy renders the same table as the four-group admin page for the same roster and matches |
| LegacyAdmin.UpdateIsIdempotent | src/scripts/administraciongrupos.ts:107-112 | running the legacy pass again on the roster it left behind gives the same roster and table |
| LegacyAdmin.NameById | src/scripts/administraciongrupos.ts:162-164 | the name of the player the engine would credit for the id, or "Unknown" when no roster player has it |
| LegacyAdmin.History | src/scripts/administraciongrupos.ts:166-180 | the placeholder exactly when there are no matches, otherwise one card per match in the reverse of the store's listing order, with names from NameById |

## Left out

- The document store (Firestore) is not modelled. Its reads, writes, batches
  and change subscriptions become function inputs or are left out: a group
  document is a `GroupDoc` value, and a notification is a call. The races
  between in-flight reads and renders are not modelled either, because the
  store's delivery order is not visible in the code.
- DOM rendering is not modelled: HTML strings, CSS classes, `alert` and
  `confirm`. A confirmation dialog becomes a `confirmed` flag. The
  animation frame and the 48-pixel transform are not modelled; only the
  offset that feeds them is.
- `getPlayerName` (adminGrupos.ts:92-97) reads a name from the page's
  select options, so the display name is a function input (`nameOf`).
- The store assigns match ids and `Date.now()` supplies timestamps, so both
  are inputs. Where the store lists a new match is also an input (`at`).
- The password gate of the legacy page (administraciongrupos.ts:17-59) is
  left out. Neither is its initial read, `loadGroupFromFirebase`, beyond
  the engine and history it calls.
- `src/utils/osuApi.ts`, `src/utils/firebase.ts`, the page configuration
  and the API route are not part of this model. They are external services
  and build configuration.
- `getGameBanner` and its banner table are left out (grupos.ts:15-26,
  43-45). They only choose a background image.
- `showParticipants` is left out (grupos.ts:142-160). It renders a list the
  model keeps as `Panel.participants`.
- `updateMatchSelects` is left out (adminGrupos.ts:381-398 and
  administraciongrupos.ts:149-160). It only renders the roster as options.
- The admin page's tab switching (adminGrupos.ts:476-519) changes CSS
  classes only and is left out. The public page's tab click is modelled for
  the positions it forgets.
- `loadAllGroups` only sequences the four loads and is left out.
- A button without a `data-group` attribute returns early; this is not
  modelled. Every command acts on one given group. Groups other than A–D do
  not exist in the model.
- The avatar lookup ignores inherited properties of the id table: an id
  such as `"constructor"` would find an object prototype member. Ids are
  assumed to be plain roster ids.
- Ids are assumed to need no quoting when a CSS selector is built from them
  (grupos.ts:234-236).
- The cell writes of the public table (grupos.ts:239-245) are modelled as
  the ranked rows of the pass, not per DOM row. A row that is not found
  receives no cells, and that case is not modelled.
- The `try`/`catch` blocks around store writes are not modelled. A failed
  write is a store failure, which is left out.
- AdminGroups.ResetMatches: a missing group document reads as the empty
  roster. The code writes nothing to the roster in that case
  (adminGrupos.ts:297-312), and the empty roster stays empty, so the
  standings agree.
- The history order is the reverse of the store's listing order, which is
  an input (`at`). The `timestamp` the add command writes
  (adminGrupos.ts:209) is read by none of the three history lists, so a new
  match is on top only when the store lists it last
  (`AdminGroups.AddedMatchInHistory`).
- The admin page's history cards carry no winner highlight and include a
  delete button. The model's cards carry the public page's highlight
  flags; the admin page's rendering does not use them.
- Numbers are unbounded. Counters in the browser are doubles that stay
  exact far beyond any tournament's size.

## Findings

| source | as written | input that shows it | evidently intended | confidence | as-written member | corrected member |
|---|---|---|---|---|---|---|
| src/scripts/grupos.ts:70-78 | when the group document is missing or its roster is empty at page load, `loadGroup` shows the placeholder and returns before attaching the roster and match listeners (lines 105-131) | the page opens on a group with no players; an admin then saves a roster of four | the roster listener hides the placeholder when players arrive (lines 110-113), so the group should go live once a roster is saved | high; not executed | PublicGroups.EmptyAtLoadNeverGoesLive | PublicGroups.LoadedGroupFollowsRoster |
| src/scripts/grupos.ts:210-227 | table rows are created only when the table body is empty, and existing rows are only moved | rows for players a and b on screen; the admin clears the group (roster [], no matches) or saves a different roster | the table lists exactly the current roster's players in standings order | medium; not executed | PublicGroups.ClearedGroupKeepsRowsAsWritten | PublicGroups.OnMatchesNoticeSynced |

=== FILE: admin_commands.dfy ===
/** The four-group admin page: the commands it offers (save a roster, record a
    match, reset the matches, clear the group, delete one match) as transitions
    of one group's state, the avatar it assigns to a new roster entry, and the
    standings table it renders. */
module AdminGroups {
  import opened Tournament
  import opened Ranking
  import opened Engine
  import opened MatchHistory

  // ---------------------------------------------------------------------
  // Avatars.
  // ---------------------------------------------------------------------

  /** The osu! account registered for each roster id. */
  const OsuIds: map<string, nat> := map[
    "1" := 4881251, "2" := 2546001, "3" := 11786864, "4" := 5339515,
    "5" := 13058814, "6" := 5386106, "7" := 11022739, "8" := 5298487,
    "9" := 5619615, "10" := 1603962, "11" := 36679874, "12" := 11207004,
    "13" := 18946207, "14" := 6194830, "15" := 7963246, "16" := 36471978]

  const AvatarBase: string := "https://a.ppy.sh/"
  const DefaultPhoto: string := "/mascota.png"

  predicate IsDigits(s: string)
  {
    forall i :: 0 <= i < |s| ==> '0' <= s[i] <= '9'
  }

  /** A number in decimal, as a template literal prints it: no leading zero,
      and a single digit exactly for the numbers below ten. */
  function DecimalString(n: nat): (s: string)
    ensures |s| > 0 && IsDigits(s)
    ensures s[0] == '0' <==> n == 0
    ensures |s| == 1 <==> n < 10
    decreases n
  {
    var last := ('0' as int + n % 10) as char;
    if n < 10 then [last] else DecimalString(n / 10) + [last]
  }

  /** The value of a string of decimal digits. */
  function ParseDecimal(s: string): nat
    requires IsDigits(s)
    decreases |s|
  {
    if |s| == 0 then 0
    else 10 * ParseDecimal(s[..|s| - 1]) + (s[|s| - 1] as int - '0' as int)
  }

  lemma {:induction false} DecimalRoundTrip(n: nat)
    ensures ParseDecimal(DecimalString(n)) == n
    decreases n
  {
    var s := DecimalString(n);
    var last := ('0' as int + n % 10) as char;
    if n < 10 {
      assert s[..0] == [];
    } else {
      DecimalRoundTrip(n / 10);
      DropLastAppend(DecimalString(n / 10), last);
    }
  }

  /** The avatar of a new roster entry: the account's picture when the id is
      registered (every registered account number is non-zero, so the
      truthiness test never falls through), the mascot otherwise. The URL
      names the account: reading the digits after the base gives it back. */
  function PlayerPhoto(id: string): (url: string)
    ensures id !in OsuIds ==> url == DefaultPhoto
    ensures id in OsuIds ==>
              && |url| > |AvatarBase|
              && url[..|AvatarBase|] == AvatarBase
              && IsDigits(url[|AvatarBase|..])
              && url[|AvatarBase|] != '0'
              && ParseDecimal(url[|AvatarBase|..]) == OsuIds[id]
  {
    if id in OsuIds && OsuIds[id] != 0 then
      var digits := DecimalString(OsuIds[id]);
      DecimalRoundTrip(OsuIds[id]);
      assert (AvatarBase + digits)[|AvatarBase|..] == digits;
      AvatarBase + digits
    else DefaultPhoto
  }

  /** No two registered ids share an account, so no two of them share an avatar. */
  lemma RegisteredPhotosDiffer(a: string, b: string)
    requires a in OsuIds && b in OsuIds && a != b
    ensures PlayerPhoto(a) != PlayerPhoto(b)
  {
    assert OsuIds[a] != OsuIds[b];
  }

  // ---------------------------------------------------------------------
  // Command outcomes.
  // ---------------------------------------------------------------------

  /** Why a command was refused (the page shows an alert and writes nothing). */
  datatype Rejection = InvalidSelection | InvalidMatchData

  datatype Outcome<T> = Accepted(value: T) | Rejected(reason: Rejection)

  // ---------------------------------------------------------------------
  // Save a group roster.
  // ---------------------------------------------------------------------

  /** Four selections, none left on the empty option, no player twice. */
  predicate ValidSelection(sel: seq<string>)
  {
    (forall i :: 0 <= i < |sel| ==> sel[i] != "") && Distinct(sel)
  }

  /** The roster written for a valid selection, in selection order. The
      display name of each id is read from the page, so it is an input here. */
  function NewRoster(sel: seq<string>, nameOf: string -> string): (roster: seq<Player>)
    ensures Ids(roster) == sel
    ensures forall i :: 0 <= i < |roster| ==>
              roster[i] == Player(sel[i], nameOf(sel[i]), PlayerPhoto(sel[i]), 0, 0, 0, 0)
  {
    var roster := seq(|sel|, i requires 0 <= i < |sel| =>
      Player(sel[i], nameOf(sel[i]), PlayerPhoto(sel[i]), 0, 0, 0, 0));
    assert forall i :: 0 <= i < |sel| ==> Ids(roster)[i] == sel[i];
    roster
  }

  /** The save button. It is refused unless the four selections are filled
      and pairwise different; otherwise the group document is replaced by the
      new roster. The match collection is a separate store path that the
      write does not touch. */
  function SaveGroup(state: GroupState, sel: seq<string>, nameOf: string -> string): (r: Outcome<GroupState>)
    requires |sel| == 4
    ensures r.Accepted? <==> ValidSelection(sel)
    ensures r.Rejected? ==> r.reason == InvalidSelection
    ensures r.Accepted? ==> Ids(r.value.roster) == sel && r.value.matches == state.matches
    ensures r.Accepted? ==> r.value.roster == NewRoster(sel, nameOf)
    ensures r.Accepted? ==> forall p :: p in r.value.roster ==>
              p.played == 0 && p.wins == 0 && p.losses == 0 && p.points == 0
  {
    DistinctCount(sel);
    if "" in sel || |set x | x in sel| != 4 then Rejected(InvalidSelection)
    else Accepted(GroupState(NewRoster(sel, nameOf), state.matches))
  }

  /** A saved roster shows up as the standings in selection order, every
      player found at their own position, until matches between them arrive. */
  lemma SavedRosterStandings(state: GroupState, sel: seq<string>, nameOf: string -> string)
    requires |sel| == 4
    requires SaveGroup(state, sel, nameOf).Accepted?
    ensures var roster := SaveGroup(state, sel, nameOf).value.roster;
            && Standings(roster, []) == roster
            && forall k :: 0 <= k < |roster| ==> IsFirst(roster, k)
  {
    var roster := SaveGroup(state, sel, nameOf).value.roster;
    NoMatchesKeepRosterOrder(roster);
    assert ZeroCounters(roster) == roster by {
      assert forall i :: 0 <= i < |roster| ==> ZeroCounters(roster)[i] == roster[i];
    }
    forall k | 0 <= k < |roster| ensures IsFirst(roster, k) {
      DistinctIdsAreFirst(roster, k);
    }
  }

  // ---------------------------------------------------------------------
  // Record a match.
  // ---------------------------------------------------------------------

  /** A form field holding a non-empty value; None is a field missing from
      the page. */
  predicate Filled(v: Option<string>)
  {
    v.Some? && v.value != ""
  }

  /** The match form. It is refused when a field is empty or both players are
      the same; otherwise the winner selector "1" names player1 and any other
      value names player2. The store assigns the id and the clock gives the
      timestamp, so both are inputs. */
  function ValidateMatch(p1: Option<string>, p2: Option<string>, game: Option<string>,
                         winnerSel: Option<string>, id: string, timestamp: int): (r: Outcome<Match>)
    ensures r.Accepted? <==>
              Filled(p1) && Filled(p2) && Filled(game) && Filled(winnerSel) && p1.value != p2.value
    ensures r.Rejected? ==> r.reason == InvalidMatchData
    ensures r.Accepted? ==>
              && r.value.player1 == p1.value && r.value.player2 == p2.value
              && r.value.game == game.value && r.value.id == id && r.value.timestamp == timestamp
              && r.value.player1 != r.value.player2
              && (r.value.winner == r.value.player1 <==> winnerSel.value == "1")
              && (r.value.winner == r.value.player2 <==> winnerSel.value != "1")
  {
    if !Filled(p1) || !Filled(p2) || !Filled(game) || !Filled(winnerSel) || p1.value == p2.value then
      Rejected(InvalidMatchData)
    else
      var winner := if winnerSel.value == "1" then p1.value else p2.value;
      Accepted(Match(id, p1.value, p2.value, winner, game.value, timestamp))
  }

  /** A new match document. Where it lands in the collection's listing is
      the store's choice, so the position is an input. */
  function AddMatch(state: GroupState, m: Match, at: nat): (r: GroupState)
    requires at <= |state.matches|
    ensures r.roster == state.roster
    ensures multiset(r.matches) == multiset(state.matches) + multiset{m}
    ensures |r.matches| == |state.matches| + 1 && r.matches[at] == m
    ensures r.matches[..at] == state.matches[..at]
    ensures r.matches[at + 1..] == state.matches[at..]
  {
    var ms := state.matches;
    InsertAt(ms, at, m);
    GroupState(state.roster, ms[..at] + [m] + ms[at..])
  }

  /** The add button: validation, then the new match document. */
  function RecordMatch(state: GroupState, p1: Option<string>, p2: Option<string>,
                       game: Option<string>, winnerSel: Option<string>,
                       id: string, timestamp: int, at: nat): (r: Outcome<GroupState>)
    requires at <= |state.matches|
    ensures r.Accepted? <==> ValidateMatch(p1, p2, game, winnerSel, id, timestamp).Accepted?
    ensures r.Rejected? ==> r.reason == InvalidMatchData
    ensures r.Accepted? ==> r.value.roster == state.roster
    ensures r.Accepted? ==>
              multiset(r.value.matches) ==
              multiset(state.matches) + multiset{ValidateMatch(p1, p2, game, winnerSel, id, timestamp).value}
  {
    match ValidateMatch(p1, p2, game, winnerSel, id, timestamp)
    case Rejected(e) => Rejected(e)
    case Accepted(m) => Accepted(AddMatch(state, m, at))
  }

  /** Wherever the new match lands, the recomputed counters are those of the
      old collection with the new match applied last. */
  lemma AddMatchCounters(state: GroupState, m: Match, at: nat)
    requires at <= |state.matches|
    ensures Counters(state.roster, AddMatch(state, m, at).matches) ==
            ApplyMatch(Counters(state.roster, state.matches), m)
  {
    var ms := state.matches;
    var appended := ms + [m];
    assert multiset(appended) == multiset(ms) + multiset{m};
    MatchOrderIrrelevant(state.roster, AddMatch(state, m, at).matches, appended);
    DropLastAppend(ms, m);
  }

  /** The history lists the collection from its last entry up, so a new match
      shows wherever the store lists it: with the match at listing position
      `at` of n + 1, its card is number n - at from the top, and the old cards
      keep their order around it. Only a match listed last lands on top. */
  lemma AddedMatchInHistory(state: GroupState, m: Match, at: nat)
    requires at <= |state.matches|
    ensures var n := |state.matches|;
            var h := ShowHistory(state.roster, AddMatch(state, m, at).matches);
            && h.Cards? && |h.entries| == n + 1
            && h.entries[n - at] == CardOf(state.roster, m)
            && (n > 0 ==>
                  var shown := ShowHistory(state.roster, state.matches).entries;
                  h.entries[..n - at] == shown[..n - at] &&
                  h.entries[n - at + 1..] == shown[n - at..])
  {
    var added := AddMatch(state, m, at).matches;
    HistoryAfterInsert(state.roster, state.matches, added, at, m);
  }

  lemma HistoryAfterInsert(roster: seq<Player>, ms: seq<Match>, added: seq<Match>, at: nat, m: Match)
    requires at <= |ms| && |added| == |ms| + 1 && added[at] == m
    requires added[..at] == ms[..at] && added[at + 1..] == ms[at..]
    ensures var h := ShowHistory(roster, added);
            && h.Cards? && |h.entries| == |ms| + 1
            && h.entries[|ms| - at] == CardOf(roster, m)
            && (|ms| > 0 ==>
                  var shown := ShowHistory(roster, ms).entries;
                  h.entries[..|ms| - at] == shown[..|ms| - at] &&
                  h.entries[|ms| - at + 1..] == shown[|ms| - at..])
  {
    if |ms| > 0 {
      HistoryAbove(roster, ms, added, at);
      HistoryBelow(roster, ms, added, at);
    }
  }

  lemma HistoryAbove(roster: seq<Player>, ms: seq<Match>, added: seq<Match>, at: nat)
    requires 0 < |ms| && at <= |ms| && |added| == |ms| + 1
    requires added[..at] == ms[..at] && added[at + 1..] == ms[at..]
    ensures ShowHistory(roster, added).entries[..|ms| - at] ==
            ShowHistory(roster, ms).entries[..|ms| - at]
  {
    var n := |ms|;
    var above := ShowHistory(roster, added).entries[..n - at];
    var aboveOld := ShowHistory(roster, ms).entries[..n - at];
    forall i | 0 <= i < n - at ensures above[i] == aboveOld[i] {
      HistoryEntryShift(roster, ms, added, at, i);
    }
  }

  lemma HistoryBelow(roster: seq<Player>, ms: seq<Match>, added: seq<Match>, at: nat)
    requires 0 < |ms| && at <= |ms| && |added| == |ms| + 1
    requires added[..at] == ms[..at] && added[at + 1..] == ms[at..]
    ensures ShowHistory(roster, added).entries[|ms| - at + 1..] ==
            ShowHistory(roster, ms).entries[|ms| - at..]
  {
    var n := |ms|;
    var below := ShowHistory(roster, added).entries[n - at + 1..];
    var belowOld := ShowHistory(roster, ms).entries[n - at..];
    forall i | 0 <= i < at ensures below[i] == belowOld[i] {
      HistoryEntryShift(roster, ms, added, at, n - at + 1 + i);
    }
  }

  /** One card of the history after an insertion, against the card before it. */
  lemma HistoryEntryShift(roster: seq<Player>, ms: seq<Match>, added: seq<Match>, at: nat, i: nat)
    requires 0 < |ms| && at <= |ms| && |added| == |ms| + 1 && i <= |ms|
    requires added[..at] == ms[..at] && added[at + 1..] == ms[at..]
    ensures i < |ms| - at ==>
              ShowHistory(roster, added).entries[i] == ShowHistory(roster, ms).entries[i]
    ensures i > |ms| - at ==>
              ShowHistory(roster, added).entries[i] == ShowHistory(roster, ms).entries[i - 1]
  {
    InsertedFromTheEnd(ms, added, at, i);
  }

  /** Counted from the end, the entries above an inserted one keep their
      places, and those below it move down by one. */
  lemma InsertedFromTheEnd<T>(ms: seq<T>, added: seq<T>, at: nat, i: nat)
    requires at <= |ms| && |added| == |ms| + 1 && i <= |ms|
    requires added[..at] == ms[..at] && added[at + 1..] == ms[at..]
    ensures i < |ms| - at ==> added[|ms| - i] == ms[|ms| - 1 - i]
    ensures i > |ms| - at ==> added[|ms| - i] == ms[|ms| - i]
  {
    var n := |ms|;
    if i < n - at {
      assert added[n - i] == added[at + 1..][n - i - at - 1];
    } else if i > n - at {
      assert added[n - i] == added[..at][n - i];
    }
  }

  /** A match recorded through the form always credits the player the
      selector named: the winner is one of the two, and they differ. */
  lemma RecordedWinnerIsCredited(p1: Option<string>, p2: Option<string>, game: Option<string>,
                                 winnerSel: Option<string>, id: string, timestamp: int)
    requires ValidateMatch(p1, p2, game, winnerSel, id, timestamp).Accepted?
    ensures var m := ValidateMatch(p1, p2, game, winnerSel, id, timestamp).value;
            && CreditedWinner(m) == m.winner
            && CreditedLoser(m) != m.winner
            && (CreditedWinner(m) == p1.value <==> winnerSel.value == "1")
  {
  }

  // ---------------------------------------------------------------------
  // Reset the matches, clear the group, delete one match.
  // ---------------------------------------------------------------------

  /** The reset-matches button: once confirmed, every match document is
      deleted and the roster is written back with its counters cleared. A
      missing group document reads as the empty roster, which stays empty. */
  function ResetMatches(state: GroupState, confirmed: bool): (r: GroupState)
    ensures !confirmed ==> r == state
    ensures confirmed ==> |r.matches| == 0
    ensures confirmed ==> SameIdentity(r.roster, state.roster)
    ensures confirmed ==> forall p :: p in r.roster ==>
              p.played == 0 && p.wins == 0 && p.losses == 0 && p.points == 0
  {
    if !confirmed then state else GroupState(ZeroCounters(state.roster), [])
  }

  /** After a reset the standings are the roster in roster order with every
      counter at zero; resetting again changes nothing. */
  lemma ResetShowsRosterAtZero(state: GroupState)
    ensures var r := ResetMatches(state, true);
            && Standings(r.roster, r.matches) == r.roster
            && Standings(r.roster, r.matches) == Standings(state.roster, [])
            && ResetMatches(r, true) == r
  {
    var r := ResetMatches(state, true);
    NoMatchesKeepRosterOrder(r.roster);
    NoMatchesKeepRosterOrder(state.roster);
    assert ZeroCounters(r.roster) == r.roster by {
      assert forall i :: 0 <= i < |r.roster| ==> ZeroCounters(r.roster)[i] == r.roster[i];
    }
  }

  /** The clear-group button: once confirmed, every match is deleted and the
      roster is written as the empty list. */
  function ClearGroup(state: GroupState, confirmed: bool): (r: GroupState)
    ensures !confirmed ==> r == state
    ensures confirmed ==> |r.roster| == 0 && |r.matches| == 0
  {
    if confirmed then GroupState([], []) else state
  }

  /** A cleared group shows empty standings and the no-matches placeholder,
      whatever it held before. */
  lemma ClearedGroupShowsNothing(state: GroupState)
    ensures var r := ClearGroup(state, true);
            |Standings(r.roster, r.matches)| == 0 && ShowHistory(r.roster, r.matches).NoMatches?
  {
  }

  /** The matches of `ms` other than those with the id `id`, in order. */
  function Without(ms: seq<Match>, id: string): (r: seq<Match>)
    ensures forall m :: m in r <==> m in ms && m.id != id
    ensures |r| <= |ms|
    decreases |ms|
  {
    if |ms| == 0 then []
    else
      var last := ms[|ms| - 1];
      LastSplit(ms);
      Without(ms[..|ms| - 1], id) + (if last.id == id then [] else [last])
  }

  /** The delete button of one history card: nothing happens without a match
      id or without confirmation; otherwise the document with that id goes. */
  function DeleteMatch(state: GroupState, matchId: string, confirmed: bool): (r: GroupState)
    ensures r.roster == state.roster
    ensures matchId == "" || !confirmed ==> r == state
    ensures matchId != "" && confirmed ==>
              forall m :: m in r.matches <==> m in state.matches && m.id != matchId
  {
    if matchId == "" || !confirmed then state
    else GroupState(state.roster, Without(state.matches, matchId))
  }

  lemma {:induction false} WithoutAbsent(ms: seq<Match>, id: string)
    requires forall m :: m in ms ==> m.id != id
    ensures Without(ms, id) == ms
    decreases |ms|
  {
    if |ms| > 0 {
      LastSplit(ms);
      WithoutAbsent(ms[..|ms| - 1], id);
    }
  }

  lemma {:induction false} WithoutConcat(a: seq<Match>, b: seq<Match>, id: string)
    ensures Without(a + b, id) == Without(a, id) + Without(b, id)
    decreases |b|
  {
    if |b| == 0 {
      ConcatEmpty(a, b);
      ConcatEmpty(Without(a, id), Without(b, id));
    } else {
      var b' := b[..|b| - 1];
      WithoutConcat(a, b', id);
      DropLastConcat(a, b);
      var tail := if b[|b| - 1].id == id then [] else [b[|b| - 1]];
      AppendAssoc(Without(a, id), Without(b', id), tail);
    }
  }

  /** Deleting a match right after recording it gives the group back as it
      was, provided the store gave the new match an id no other match has. */
  lemma DeleteUndoesRecord(state: GroupState, m: Match, at: nat)
    requires at <= |state.matches|
    requires m.id != ""
    requires forall x :: x in state.matches ==> x.id != m.id
    ensures DeleteMatch(AddMatch(state, m, at), m.id, true) == state
  {
    var ms := state.matches;
    var before, after := ms[..at], ms[at..];
    WithoutConcat(before + [m], after, m.id);
    WithoutConcat(before, [m], m.id);
    WithoutAbsent(before, m.id);
    WithoutAbsent(after, m.id);
    WithoutOnly(m);
    DropMiddle(Without(before + [m] + after, m.id), Without(before, m.id), Without([m], m.id),
               Without(after, m.id), before, after);
    assert before + after == ms;
  }

  lemma WithoutOnly(m: Match)
    ensures |Without([m], m.id)| == 0
  {
    DropLastAppend([], m);
  }

  /** Deleting a match whose id no match carries changes nothing. */
  lemma DeleteUnknownIdChangesNothing(state: GroupState, matchId: string, confirmed: bool)
    requires forall x :: x in state.matches ==> x.id != matchId
    ensures DeleteMatch(state, matchId, confirmed) == state
  {
    WithoutAbsent(state.matches, matchId);
  }

  // ---------------------------------------------------------------------
  // What the page shows.
  // ---------------------------------------------------------------------

  /** A roster notification: a missing document leaves the held roster as it
      is; otherwise the held roster becomes `players ?? []`. */
  function OnRosterSnapshot(state: GroupState, doc: GroupDoc): (r: GroupState)
    ensures r.matches == state.matches
    ensures doc.Missing? ==> r == state
    ensures doc.Present? && doc.players.None? ==> |r.roster| == 0
    ensures doc.Present? && doc.players.Some? ==> r.roster == doc.players.value
  {
    if doc.Missing? then state else GroupState(PlayersOf(doc), state.matches)
  }

  /** The standings table of the admin page: the state's standings, ranked. */
  function AdminTable(state: GroupState): (rows: seq<StandingsRow>)
    ensures |rows| == |state.roster|
  {
    RankRows(Standings(state.roster, state.matches))
  }

  /** The rendered table: row i shows rank i + 1 and the name and counters
      of the i-th player of the standings, points never rise down the table,
      every row has 3 points per win and games = wins + losses, and there are
      3 points per resolved match in all. */
  lemma AdminTableShape(state: GroupState)
    ensures var rows := AdminTable(state);
            var sorted := Standings(state.roster, state.matches);
            && |rows| == |sorted|
            && (forall i :: 0 <= i < |rows| ==> rows[i].rank == i + 1)
            && (forall i :: 0 <= i < |rows| ==>
                  rows[i].name == sorted[i].name && rows[i].played == sorted[i].played &&
                  rows[i].wins == sorted[i].wins && rows[i].losses == sorted[i].losses &&
                  rows[i].points == sorted[i].points)
            && (forall i, j :: 0 <= i < j < |rows| ==> rows[i].points >= rows[j].points)
            && (forall i :: 0 <= i < |rows| ==>
                  rows[i].points == 3 * rows[i].wins && rows[i].played == rows[i].wins + rows[i].losses)
            && RowPoints(rows) == 3 * ResolvedCount(state.roster, state.matches)
  {
    var sorted := Standings(state.roster, state.matches);
    var rows := AdminTable(state);
    StandingsShape(state.roster, state.matches);
    RowPointsAreTotal(sorted);
  }

  /** The sum of the points column. */
  function RowPoints(rows: seq<StandingsRow>): nat
  {
    if |rows| == 0 then 0 else rows[0].points + RowPoints(rows[1..])
  }

  lemma {:induction false} RowPointsAreTotal(sorted: seq<Player>)
    ensures RowPoints(RankRows(sorted)) == Total(sorted, Points)
    decreases |sorted|
  {
    if |sorted| > 0 {
      RowPointsAreTotal(sorted[1..]);
      var rows := RankRows(sorted);
      var tail := RankRows(sorted[1..]);
      assert forall i :: 0 <= i < |tail| ==> rows[1..][i].points == tail[i].points;
      RowPointsSamePoints(rows[1..], tail);
    }
  }

  lemma {:induction false} RowPointsSamePoints(a: seq<StandingsRow>, b: seq<StandingsRow>)
    requires |a| == |b|
    requires forall i :: 0 <= i < |a| ==> a[i].points == b[i].points
    ensures RowPoints(a) == RowPoints(b)
    decreases |a|
  {
    if |a| > 0 {
      RowPointsSamePoints(a[1..], b[1..]);
    }
  }
}

=== FILE: engine.dfy ===
/** The standings engine that the three scripts each carry a copy of: zero the
    counters, fold the matches over the roster in collection order, then sort
    stably by points. All three copies compute the same thing; the per-page
    modules wrap this one definition. */
module Engine {
  import opened Tournament
  import opened Ranking

  /** The counters of `p` cleared, everything else kept. */
  function Zeroed(p: Player): Player
  {
    p.(played := 0, wins := 0, losses := 0, points := 0)
  }

  /** The first step of every standings pass: all four counters of every
      roster player set to 0, roster order and identities untouched. */
  function ZeroCounters(roster: seq<Player>): (r: seq<Player>)
    ensures SameIdentity(r, roster)
    ensures forall i :: 0 <= i < |r| ==>
              r[i].played == 0 && r[i].wins == 0 && r[i].losses == 0 && r[i].points == 0
  {
    seq(|roster|, i requires 0 <= i < |roster| => Zeroed(roster[i]))
  }

  function AddPlayed(p: Player): Player { p.(played := p.played + 1) }

  /** A win is worth 3 points; a loss is worth none and there are no draws. */
  function AddWin(p: Player): Player { p.(wins := p.wins + 1, points := p.points + 3) }

  function AddLoss(p: Player): Player { p.(losses := p.losses + 1) }

  /** A match counts only when both of its players are on the roster. */
  predicate Resolved(roster: seq<Player>, m: Match)
  {
    m.player1 in Ids(roster) && m.player2 in Ids(roster)
  }

  /** The side the engine credits with the win: player1 only when `winner`
      equals player1's id, player2 in every other case, including a winner
      that names neither player. */
  function CreditedWinner(m: Match): string
  {
    if m.winner == m.player1 then m.player1 else m.player2
  }

  function CreditedLoser(m: Match): string
  {
    if m.winner == m.player1 then m.player2 else m.player1
  }

  /** One step of the fold. Both players are looked up by id, each landing on
      the first roster entry with that id; if either is missing the match is
      skipped. Otherwise the updates happen one after the other on the found
      entries, exactly as the increments do on the shared objects, so a match
      of a player against themself adds 2 games, 1 win and 1 loss to one entry. */
  function ApplyMatch(roster: seq<Player>, m: Match): (r: seq<Player>)
    ensures SameIdentity(r, roster)
    ensures !Resolved(roster, m) ==> r == roster
  {
    var p1 := Resolve(roster, m.player1);
    var p2 := Resolve(roster, m.player2);
    if p1.None? || p2.None? then roster
    else
      var played := BothPlayed(roster, p1.value, p2.value);
      if m.winner == m.player1 then Decide(played, p1.value, p2.value)
      else Decide(played, p2.value, p1.value)
  }

  /** `played++` on the entry at `i`, then on the entry at `j`. */
  function BothPlayed(s: seq<Player>, i: nat, j: nat): (r: seq<Player>)
    requires i < |s| && j < |s|
    ensures |r| == |s|
    ensures forall k :: 0 <= k < |s| ==>
              r[k] == s[k].(played := s[k].played + Ind(k == i) + Ind(k == j))
  {
    var s1 := s[i := AddPlayed(s[i])];
    s1[j := AddPlayed(s1[j])]
  }

  /** The win (and its 3 points) to the entry at `w`, then the loss to the
      entry at `l`. */
  function Decide(s: seq<Player>, w: nat, l: nat): (r: seq<Player>)
    requires w < |s| && l < |s|
    ensures |r| == |s|
    ensures forall k :: 0 <= k < |s| ==>
              r[k] == s[k].(wins := s[k].wins + Ind(k == w),
                            points := s[k].points + 3 * Ind(k == w),
                            losses := s[k].losses + Ind(k == l))
  {
    var s1 := s[w := AddWin(s[w])];
    s1[l := AddLoss(s1[l])]
  }

  /** The matches applied one by one in collection order. */
  function ApplyAll(roster: seq<Player>, ms: seq<Match>): (r: seq<Player>)
    ensures SameIdentity(r, roster)
    decreases |ms|
  {
    if |ms| == 0 then roster
    else ApplyMatch(ApplyAll(roster, ms[..|ms| - 1]), ms[|ms| - 1])
  }

  /** The roster with its counters recomputed from scratch, in roster order. */
  function Counters(roster: seq<Player>, ms: seq<Match>): seq<Player>
  {
    ApplyAll(ZeroCounters(roster), ms)
  }

  /** Recomputing keeps the roster's players and their order. */
  lemma CountersKeepRoster(roster: seq<Player>, ms: seq<Match>)
    ensures SameIdentity(Counters(roster, ms), roster)
  {
    var zeroed := ZeroCounters(roster);
    var r := Counters(roster, ms);
    assert forall i :: 0 <= i < |r| ==> r[i].id == zeroed[i].id == roster[i].id;
  }

  /** The standings: the recomputed roster, stably sorted by points. */
  function Standings(roster: seq<Player>, ms: seq<Match>): seq<Player>
  {
    SortByPoints(Counters(roster, ms))
  }

  // ---------------------------------------------------------------------
  // A reference definition: what each counter should hold, as a sum over
  // the matches, independent of the order in which the fold visits them.
  // ---------------------------------------------------------------------

  /** Games, wins and losses credited to one id. */
  datatype WinLoss = WinLoss(played: nat, wins: nat, losses: nat)

  function Plus(a: WinLoss, b: WinLoss): WinLoss
  {
    WinLoss(a.played + b.played, a.wins + b.wins, a.losses + b.losses)
  }

  function Ind(b: bool): nat { if b then 1 else 0 }

  /** What one match credits to the id `id`. */
  function Credit(roster: seq<Player>, m: Match, id: string): WinLoss
  {
    if Resolved(roster, m) then
      WinLoss(Ind(m.player1 == id) + Ind(m.player2 == id),
              Ind(CreditedWinner(m) == id),
              Ind(CreditedLoser(m) == id))
    else WinLoss(0, 0, 0)
  }

  /** Everything the matches `ms` credit to the id `id`. */
  function Accrued(roster: seq<Player>, ms: seq<Match>, id: string): WinLoss
    decreases |ms|
  {
    if |ms| == 0 then WinLoss(0, 0, 0)
    else Plus(Accrued(roster, ms[..|ms| - 1], id), Credit(roster, ms[|ms| - 1], id))
  }

  /** The entry at roster position `k` as the standings should show it: the
      first player with a given id carries everything credited to that id;
      a later player repeating the id is never found and stays at zero. */
  function Expected(roster: seq<Player>, ms: seq<Match>, k: nat): Player
    requires k < |roster|
  {
    var w := Accrued(roster, ms, roster[k].id);
    if IsFirst(roster, k) then
      roster[k].(played := w.played, wins := w.wins, losses := w.losses, points := 3 * w.wins)
    else Zeroed(roster[k])
  }

  /** `p` with the credit `w` added (3 points a win). */
  function Bump(p: Player, w: WinLoss): Player
  {
    p.(played := p.played + w.played, wins := p.wins + w.wins,
       losses := p.losses + w.losses, points := p.points + 3 * w.wins)
  }

  lemma SameIdsSameLookups(a: seq<Player>, b: seq<Player>, m: Match)
    requires SameIdentity(a, b)
    ensures Ids(a) == Ids(b)
    ensures Resolved(a, m) == Resolved(b, m)
    ensures forall id :: Credit(a, m, id) == Credit(b, m, id)
    ensures forall k :: 0 <= k < |a| ==> IsFirst(a, k) == IsFirst(b, k)
  {
    SameIdentityIds(a, b);
  }

  /** The position `k` is the one a lookup of `id` lands on exactly when it is
      a first occurrence carrying `id`. */
  lemma LandsOn(roster: seq<Player>, id: string, k: nat)
    requires k < |roster|
    ensures Resolve(roster, id) == Some(k) <==> IsFirst(roster, k) && roster[k].id == id
  {
    assert Ids(roster)[k] == roster[k].id;
  }

  /** One match, seen from one roster position: the first occurrence of an id
      gains that id's credit, every other position is untouched. */
  lemma ApplyMatchAt(roster: seq<Player>, m: Match, k: nat)
    requires k < |roster|
    ensures ApplyMatch(roster, m)[k] ==
      if IsFirst(roster, k) then Bump(roster[k], Credit(roster, m, roster[k].id)) else roster[k]
  {
    var id := roster[k].id;
    var target := if IsFirst(roster, k) then Bump(roster[k], Credit(roster, m, id)) else roster[k];
    var r := ApplyMatch(roster, m);
    if !Resolved(roster, m) {
      assert Credit(roster, m, id) == WinLoss(0, 0, 0);
      PlayerExt(r[k], target);
    } else if m.winner == m.player1 {
      ResolvedAt(roster, m, k, true);
    } else {
      ResolvedAt(roster, m, k, false);
    }
  }

  /** The positions a resolved match touches: player1's and player2's first
      entries, and which of the two takes the win. */
  function Touched(roster: seq<Player>, m: Match, k: nat): WinLoss
    requires Resolved(roster, m)
  {
    var i := Resolve(roster, m.player1).value;
    var j := Resolve(roster, m.player2).value;
    var w := if m.winner == m.player1 then i else j;
    var l := if m.winner == m.player1 then j else i;
    WinLoss(Ind(k == i) + Ind(k == j), Ind(k == w), Ind(k == l))
  }

  lemma ResolvedAt(roster: seq<Player>, m: Match, k: nat, firstWins: bool)
    requires k < |roster|
    requires Resolved(roster, m)
    requires firstWins == (m.winner == m.player1)
    ensures ApplyMatch(roster, m)[k] ==
      if IsFirst(roster, k) then Bump(roster[k], Credit(roster, m, roster[k].id)) else roster[k]
  {
    var r := ApplyMatch(roster, m);
    ResolvedFields(roster, m, k, firstWins);
    TouchedIsCredit(roster, m, k, firstWins);
    var target := if IsFirst(roster, k) then Bump(roster[k], Credit(roster, m, roster[k].id)) else roster[k];
    PlayerExt(r[k], target);
  }

  lemma ResolvedFields(roster: seq<Player>, m: Match, k: nat, firstWins: bool)
    requires k < |roster|
    requires Resolved(roster, m)
    requires firstWins == (m.winner == m.player1)
    ensures ApplyMatch(roster, m)[k] == Bump(roster[k], Touched(roster, m, k))
  {
    var i := Resolve(roster, m.player1).value;
    var j := Resolve(roster, m.player2).value;
    var w := if firstWins then i else j;
    var l := if firstWins then j else i;
    ApplyMatchUnfold(roster, m, firstWins);
    assert ApplyMatch(roster, m) == Decide(BothPlayed(roster, i, j), w, l);
    assert Touched(roster, m, k) == WinLoss(Ind(k == i) + Ind(k == j), Ind(k == w), Ind(k == l));
    PlayDecideAt(roster, i, j, w, l, k);
  }

  /** Both `played++`, the win and the loss, seen at position k. */
  lemma PlayDecideAt(s: seq<Player>, i: nat, j: nat, w: nat, l: nat, k: nat)
    requires i < |s| && j < |s| && w < |s| && l < |s| && k < |s|
    ensures Decide(BothPlayed(s, i, j), w, l)[k] ==
            Bump(s[k], WinLoss(Ind(k == i) + Ind(k == j), Ind(k == w), Ind(k == l)))
  {
    var played := BothPlayed(s, i, j);
    DecideAt(played, w, l, k);
    var d := Decide(played, w, l)[k];
    PlayerExt(d, Bump(s[k], WinLoss(Ind(k == i) + Ind(k == j), Ind(k == w), Ind(k == l))));
  }

  lemma ApplyMatchUnfold(roster: seq<Player>, m: Match, firstWins: bool)
    requires Resolved(roster, m)
    requires firstWins == (m.winner == m.player1)
    ensures
      var i := Resolve(roster, m.player1).value;
      var j := Resolve(roster, m.player2).value;
      ApplyMatch(roster, m) ==
        if firstWins then Decide(BothPlayed(roster, i, j), i, j)
        else Decide(BothPlayed(roster, i, j), j, i)
  {
  }

  lemma TouchedIsCredit(roster: seq<Player>, m: Match, k: nat, firstWins: bool)
    requires k < |roster|
    requires Resolved(roster, m)
    requires firstWins == (m.winner == m.player1)
    ensures Touched(roster, m, k) ==
      if IsFirst(roster, k) then Credit(roster, m, roster[k].id) else WinLoss(0, 0, 0)
  {
    var id := roster[k].id;
    LandsOn(roster, m.player1, k);
    LandsOn(roster, m.player2, k);
    var i := Resolve(roster, m.player1).value;
    var j := Resolve(roster, m.player2).value;
    assert k == i <==> IsFirst(roster, k) && id == m.player1;
    assert k == j <==> IsFirst(roster, k) && id == m.player2;
    if firstWins {
      assert CreditedWinner(m) == m.player1 && CreditedLoser(m) == m.player2;
    } else {
      assert CreditedWinner(m) == m.player2 && CreditedLoser(m) == m.player1;
    }
  }

  lemma PlayerExt(a: Player, b: Player)
    requires a.id == b.id && a.name == b.name && a.photo == b.photo
    requires a.played == b.played && a.wins == b.wins && a.losses == b.losses && a.points == b.points
    ensures a == b
  {
  }

  lemma DecideAt(s: seq<Player>, w: nat, l: nat, k: nat)
    requires w < |s| && l < |s| && k < |s|
    ensures Decide(s, w, l)[k].id == s[k].id
    ensures Decide(s, w, l)[k].name == s[k].name
    ensures Decide(s, w, l)[k].photo == s[k].photo
    ensures Decide(s, w, l)[k].played == s[k].played
    ensures Decide(s, w, l)[k].wins == s[k].wins + Ind(k == w)
    ensures Decide(s, w, l)[k].points == s[k].points + 3 * Ind(k == w)
    ensures Decide(s, w, l)[k].losses == s[k].losses + Ind(k == l)
  {
  }

  /** The fold computes the reference: position by position, the recomputed
      roster is what Expected says. */
  lemma {:induction false} CountersMatchReference(roster: seq<Player>, ms: seq<Match>, k: nat)
    requires k < |roster|
    ensures k < |Counters(roster, ms)|
    ensures Counters(roster, ms)[k] == Expected(roster, ms, k)
    decreases |ms|
  {
    var z := ZeroCounters(roster);
    if |ms| == 0 {
    } else {
      var prefix := ms[..|ms| - 1];
      var m := ms[|ms| - 1];
      var t := Counters(roster, prefix);
      var id := roster[k].id;
      CountersMatchReference(roster, prefix, k);
      CountersKeepRoster(roster, prefix);
      SameIdsSameLookups(t, roster, m);
      assert Counters(roster, ms) == ApplyMatch(t, m);
      ApplyMatchAt(t, m, k);
      assert Accrued(roster, ms, id) == Plus(Accrued(roster, prefix, id), Credit(roster, m, id));
    }
  }

  /** The reference on the whole roster at once. */
  lemma CountersAreExpected(roster: seq<Player>, ms: seq<Match>)
    ensures |Counters(roster, ms)| == |roster|
    ensures forall k :: 0 <= k < |roster| ==> Counters(roster, ms)[k] == Expected(roster, ms, k)
  {
    forall k | 0 <= k < |roster|
      ensures Counters(roster, ms)[k] == Expected(roster, ms, k)
    {
      CountersMatchReference(roster, ms, k);
    }
  }

  /** Two match lists that credit every roster id alike give the same counters. */
  lemma SameCreditsSameCounters(roster: seq<Player>, ms1: seq<Match>, ms2: seq<Match>)
    requires forall k :: 0 <= k < |roster| ==>
               Accrued(roster, ms1, roster[k].id) == Accrued(roster, ms2, roster[k].id)
    ensures Counters(roster, ms1) == Counters(roster, ms2)
  {
    CountersAreExpected(roster, ms1);
    CountersAreExpected(roster, ms2);
  }

  // ---------------------------------------------------------------------
  // Per-player properties.
  // ---------------------------------------------------------------------

  lemma {:induction false} AccruedBalanced(roster: seq<Player>, ms: seq<Match>, id: string)
    ensures Accrued(roster, ms, id).played ==
            Accrued(roster, ms, id).wins + Accrued(roster, ms, id).losses
    decreases |ms|
  {
    if |ms| > 0 {
      AccruedBalanced(roster, ms[..|ms| - 1], id);
      CreditBalanced(roster, ms[|ms| - 1], id);
    }
  }

  /** One match credits an id with as many games as wins plus losses. */
  lemma CreditBalanced(roster: seq<Player>, m: Match, id: string)
    ensures Credit(roster, m, id).played ==
            Credit(roster, m, id).wins + Credit(roster, m, id).losses
  {
  }

  /** Every recomputed player has 3 points per win and exactly as many games
      as wins plus losses. */
  lemma PlayersBalanced(roster: seq<Player>, ms: seq<Match>)
    ensures forall p :: p in Counters(roster, ms) ==>
              p.points == 3 * p.wins && p.played == p.wins + p.losses
  {
    CountersAreExpected(roster, ms);
    forall p | p in Counters(roster, ms)
      ensures p.points == 3 * p.wins && p.played == p.wins + p.losses
    {
      var k :| 0 <= k < |Counters(roster, ms)| && Counters(roster, ms)[k] == p;
      AccruedBalanced(roster, ms, roster[k].id);
    }
  }

  /** A later roster entry that repeats an earlier id is never found by the
      lookup, so it keeps zero in all four counters. */
  lemma DuplicatesStayAtZero(roster: seq<Player>, ms: seq<Match>, k: nat)
    requires k < |roster|
    requires !IsFirst(roster, k)
    ensures Counters(roster, ms)[k] == Zeroed(roster[k])
  {
    CountersMatchReference(roster, ms, k);
  }

  /** The winner attribution of one resolved match, at the first entries of
      its two players: both play one more game; player1 gains the win and 3
      points only when `winner` equals player1, otherwise player2 does; the
      other side gains the loss. A self-match lands all of it on one entry. */
  lemma WinnerAttribution(roster: seq<Player>, m: Match)
    requires Resolved(roster, m)
    ensures var i := Resolve(roster, m.player1).value;
            var j := Resolve(roster, m.player2).value;
            var r := ApplyMatch(roster, m);
            && (i != j && m.winner == m.player1 ==>
                  r[i] == AddWin(AddPlayed(roster[i])) && r[j] == AddLoss(AddPlayed(roster[j])))
            && (i != j && m.winner != m.player1 ==>
                  r[j] == AddWin(AddPlayed(roster[j])) && r[i] == AddLoss(AddPlayed(roster[i])))
            && (i == j ==> r[i] == AddLoss(AddWin(AddPlayed(AddPlayed(roster[i])))))
            && forall k :: 0 <= k < |roster| && k != i && k != j ==> r[k] == roster[k]
  {
  }

  // ---------------------------------------------------------------------
  // Totals over the roster.
  // ---------------------------------------------------------------------

  datatype Counter = Played | Wins | Losses | Points

  function Get(p: Player, c: Counter): nat
  {
    match c
    case Played => p.played
    case Wins => p.wins
    case Losses => p.losses
    case Points => p.points
  }

  /** The sum of one counter over a list of players. */
  function Total(s: seq<Player>, c: Counter): nat
  {
    if |s| == 0 then 0 else Get(s[0], c) + Total(s[1..], c)
  }

  /** What one resolved match adds to the roster-wide total of a counter. */
  function Gain(c: Counter): nat
  {
    match c
    case Played => 2
    case Wins => 1
    case Losses => 1
    case Points => 3
  }

  /** The number of matches in `ms` whose two players are both on the roster. */
  function ResolvedCount(roster: seq<Player>, ms: seq<Match>): nat
    decreases |ms|
  {
    if |ms| == 0 then 0
    else ResolvedCount(roster, ms[..|ms| - 1]) + Ind(Resolved(roster, ms[|ms| - 1]))
  }

  lemma {:induction false} TotalUpdate(s: seq<Player>, i: nat, x: Player, c: Counter)
    requires i < |s|
    ensures Total(s[i := x], c) + Get(s[i], c) == Total(s, c) + Get(x, c)
  {
    if i > 0 {
      TotalUpdate(s[1..], i - 1, x, c);
      assert s[i := x][1..] == s[1..][i - 1 := x];
    }
  }

  lemma {:induction false} TotalOfZeroed(roster: seq<Player>, c: Counter)
    ensures Total(ZeroCounters(roster), c) == 0
  {
    if |roster| > 0 {
      TotalOfZeroed(roster[1..], c);
      assert ZeroCounters(roster)[1..] == ZeroCounters(roster[1..]);
    }
  }

  /** One resolved match adds 2 games, 1 win, 1 loss and 3 points to the
      roster totals; a skipped one adds nothing. */
  lemma ApplyMatchTotals(roster: seq<Player>, m: Match, c: Counter)
    ensures Total(ApplyMatch(roster, m), c) ==
            Total(roster, c) + (if Resolved(roster, m) then Gain(c) else 0)
  {
    if Resolved(roster, m) {
      var i := Resolve(roster, m.player1).value;
      var j := Resolve(roster, m.player2).value;
      var s1 := roster[i := AddPlayed(roster[i])];
      var s2 := s1[j := AddPlayed(s1[j])];
      TotalUpdate(roster, i, AddPlayed(roster[i]), c);
      TotalUpdate(s1, j, AddPlayed(s1[j]), c);
      if m.winner == m.player1 {
        var s3 := s2[i := AddWin(s2[i])];
        TotalUpdate(s2, i, AddWin(s2[i]), c);
        TotalUpdate(s3, j, AddLoss(s3[j]), c);
      } else {
        var s3 := s2[j := AddWin(s2[j])];
        TotalUpdate(s2, j, AddWin(s2[j]), c);
        TotalUpdate(s3, i, AddLoss(s3[i]), c);
      }
    }
  }

  /** Conservation: with K resolved matches, the roster totals are 2K games,
      K wins, K losses and 3K points, whatever the incoming counters were. */
  lemma {:induction false} Conservation(roster: seq<Player>, ms: seq<Match>, c: Counter)
    ensures Total(Counters(roster, ms), c) == Gain(c) * ResolvedCount(roster, ms)
    decreases |ms|
  {
    if |ms| == 0 {
      TotalOfZeroed(roster, c);
    } else {
      Conservation(roster, ms[..|ms| - 1], c);
      ConservationStep(roster, ms, c);
    }
  }

  lemma ConservationStep(roster: seq<Player>, ms: seq<Match>, c: Counter)
    requires |ms| > 0
    ensures Total(Counters(roster, ms), c) ==
            Total(Counters(roster, ms[..|ms| - 1]), c) + Gain(c) * Ind(Resolved(roster, ms[|ms| - 1]))
  {
    var m := ms[|ms| - 1];
    var prefix := ms[..|ms| - 1];
    var t := Counters(roster, prefix);
    assert Counters(roster, ms) == ApplyMatch(t, m);
    CountersKeepRoster(roster, prefix);
    SameIdsSameLookups(t, roster, m);
    ApplyMatchTotals(t, m, c);
  }

  // ---------------------------------------------------------------------
  // What the counters do not depend on.
  // ---------------------------------------------------------------------

  /** The counters a roster arrives with are irrelevant: rosters listing the
      same players give the same standings. In particular recomputing from the
      engine's own output changes nothing. */
  lemma IncomingCountersIrrelevant(r1: seq<Player>, r2: seq<Player>, ms: seq<Match>)
    requires SameIdentity(r1, r2)
    ensures Counters(r1, ms) == Counters(r2, ms)
    ensures Standings(r1, ms) == Standings(r2, ms)
  {
    assert ZeroCounters(r1) == ZeroCounters(r2);
  }

  /** Recomputing from a roster that already carries the engine's counters, as
      the pages do on every event, gives the same roster and the same order. */
  lemma RecomputeIsIdempotent(roster: seq<Player>, ms: seq<Match>)
    ensures Counters(Counters(roster, ms), ms) == Counters(roster, ms)
    ensures Standings(Counters(roster, ms), ms) == Standings(roster, ms)
  {
    IncomingCountersIrrelevant(Counters(roster, ms), roster, ms);
  }

  lemma {:induction false} AccruedConcat(roster: seq<Player>, a: seq<Match>, b: seq<Match>, id: string)
    ensures Accrued(roster, a + b, id) == Plus(Accrued(roster, a, id), Accrued(roster, b, id))
    decreases |b|
  {
    if |b| == 0 {
      ConcatEmpty(a, b);
    } else {
      var ab := a + b;
      var b' := b[..|b| - 1];
      AccruedConcat(roster, a, b', id);
      DropLastConcat(a, b);
      assert Accrued(roster, ab, id) == Plus(Accrued(roster, a + b', id), Credit(roster, b[|b| - 1], id));
      assert Accrued(roster, b, id) == Plus(Accrued(roster, b', id), Credit(roster, b[|b| - 1], id));
    }
  }

  lemma {:induction false} AccruedPermutation(roster: seq<Player>, ms1: seq<Match>, ms2: seq<Match>, id: string)
    requires multiset(ms1) == multiset(ms2)
    ensures Accrued(roster, ms1, id) == Accrued(roster, ms2, id)
    decreases |ms1|
  {
    if |ms1| == 0 {
      assert |ms2| == |multiset(ms2)| == 0;
    } else {
      var n := |ms1| - 1;
      var k := FindInPermutation(ms1, ms2, n);
      RemoveLastFromPermutation(ms1, ms2, k);
      AccruedPermutation(roster, ms1[..n], ms2[..k] + ms2[k + 1..], id);
      AccruedLast(roster, ms1, id);
      AccruedMiddle(roster, ms2, k, id);
    }
  }

  lemma AccruedLast(roster: seq<Player>, ms: seq<Match>, id: string)
    requires |ms| > 0
    ensures Accrued(roster, ms, id) ==
            Plus(Accrued(roster, ms[..|ms| - 1], id), Credit(roster, ms[|ms| - 1], id))
  {
  }

  /** Taking one match out of the middle of the list takes its credit out. */
  lemma AccruedMiddle(roster: seq<Player>, ms: seq<Match>, k: nat, id: string)
    requires k < |ms|
    ensures Accrued(roster, ms, id) ==
            Plus(Accrued(roster, ms[..k] + ms[k + 1..], id), Credit(roster, ms[k], id))
  {
    var before, after, x := ms[..k], ms[k + 1..], ms[k];
    AccruedAround(roster, ms, k, id);
    AccruedConcat(roster, before, [x], id);
    AccruedSingle(roster, x, id);
    AccruedConcat(roster, before, after, id);
    PlusSwap(Accrued(roster, before, id), Credit(roster, x, id), Accrued(roster, after, id));
  }

  lemma AccruedAround(roster: seq<Player>, ms: seq<Match>, k: nat, id: string)
    requires k < |ms|
    ensures Accrued(roster, ms, id) ==
            Plus(Accrued(roster, ms[..k] + [ms[k]], id), Accrued(roster, ms[k + 1..], id))
  {
    SplitAround(ms, k);
    AccruedConcat(roster, ms[..k] + [ms[k]], ms[k + 1..], id);
  }

  lemma PlusSwap(a: WinLoss, b: WinLoss, c: WinLoss)
    ensures Plus(Plus(a, b), c) == Plus(Plus(a, c), b)
  {
  }

  lemma AccruedSingle(roster: seq<Player>, m: Match, id: string)
    ensures Accrued(roster, [m], id) == Credit(roster, m, id)
  {
    DropLastAppend([], m);
  }

  /** The counters depend on which matches are in the collection, not on the
      order in which the store lists them. */
  lemma MatchOrderIrrelevant(roster: seq<Player>, ms1: seq<Match>, ms2: seq<Match>)
    requires multiset(ms1) == multiset(ms2)
    ensures Counters(roster, ms1) == Counters(roster, ms2)
    ensures Standings(roster, ms1) == Standings(roster, ms2)
  {
    forall k | 0 <= k < |roster|
      ensures Accrued(roster, ms1, roster[k].id) == Accrued(roster, ms2, roster[k].id)
    {
      AccruedPermutation(roster, ms1, ms2, roster[k].id);
    }
    SameCreditsSameCounters(roster, ms1, ms2);
  }

  /** The matches whose two players are both on the roster, in order. */
  function ResolvedOnly(roster: seq<Player>, ms: seq<Match>): (r: seq<Match>)
    ensures forall m :: m in r <==> m in ms && Resolved(roster, m)
    decreases |ms|
  {
    if |ms| == 0 then []
    else
      var m := ms[|ms| - 1];
      assert ms == ms[..|ms| - 1] + [m];
      ResolvedOnly(roster, ms[..|ms| - 1]) + (if Resolved(roster, m) then [m] else [])
  }

  lemma {:induction false} OrphansCreditNothing(roster: seq<Player>, ms: seq<Match>, id: string)
    ensures Accrued(roster, ms, id) == Accrued(roster, ResolvedOnly(roster, ms), id)
    decreases |ms|
  {
    if |ms| > 0 {
      var prefix := ms[..|ms| - 1];
      var m := ms[|ms| - 1];
      OrphansCreditNothing(roster, prefix, id);
      if Resolved(roster, m) {
        var kept := ResolvedOnly(roster, prefix) + [m];
        assert kept[..|kept| - 1] == ResolvedOnly(roster, prefix);
      } else {
        assert ResolvedOnly(roster, ms) == ResolvedOnly(roster, prefix);
      }
    }
  }

  /** Matches naming a player who is not on the roster change no counter:
      the standings are those of the resolved matches alone. */
  lemma OrphansChangeNothing(roster: seq<Player>, ms: seq<Match>)
    ensures Counters(roster, ms) == Counters(roster, ResolvedOnly(roster, ms))
    ensures ResolvedCount(roster, ms) == |ResolvedOnly(roster, ms)|
  {
    forall k | 0 <= k < |roster|
      ensures Accrued(roster, ms, roster[k].id) == Accrued(roster, ResolvedOnly(roster, ms), roster[k].id)
    {
      OrphansCreditNothing(roster, ms, roster[k].id);
    }
    SameCreditsSameCounters(roster, ms, ResolvedOnly(roster, ms));
    ResolvedCountIsLength(roster, ms);
  }

  lemma {:induction false} ResolvedCountIsLength(roster: seq<Player>, ms: seq<Match>)
    ensures ResolvedCount(roster, ms) == |ResolvedOnly(roster, ms)|
    decreases |ms|
  {
    if |ms| > 0 {
      ResolvedCountIsLength(roster, ms[..|ms| - 1]);
    }
  }

  // ---------------------------------------------------------------------
  // The standings list.
  // ---------------------------------------------------------------------

  /** The standings are the recomputed roster reordered: same players, more
      points first, equal points in roster order, and balanced counters. */
  lemma StandingsShape(roster: seq<Player>, ms: seq<Match>)
    ensures multiset(Standings(roster, ms)) == multiset(Counters(roster, ms))
    ensures NonIncreasing(Standings(roster, ms))
    ensures forall v: nat :: WithPoints(Standings(roster, ms), v) == WithPoints(Counters(roster, ms), v)
    ensures forall p :: p in Standings(roster, ms) ==>
              p.points == 3 * p.wins && p.played == p.wins + p.losses
    ensures Total(Standings(roster, ms), Points) == 3 * ResolvedCount(roster, ms)
  {
    PlayersBalanced(roster, ms);
    var c := Counters(roster, ms);
    assert forall p :: p in Standings(roster, ms) ==> p in multiset(c);
    Conservation(roster, ms, Points);
    TotalPermutation(Standings(roster, ms), c, Points);
  }

  lemma {:induction false} TotalPermutation(a: seq<Player>, b: seq<Player>, c: Counter)
    requires multiset(a) == multiset(b)
    ensures Total(a, c) == Total(b, c)
    decreases |a|
  {
    if |a| == 0 {
      assert |b| == |multiset(b)| == 0;
    } else {
      var x := a[0];
      var k := FindInPermutation(a, b, 0);
      var rest := b[..k] + b[k + 1..];
      RemoveFirstFromPermutation(a, b, k);
      TotalPermutation(a[1..], rest, c);
      TotalRemove(b, k, c);
    }
  }

  lemma {:induction false} TotalRemove(s: seq<Player>, k: nat, c: Counter)
    requires k < |s|
    ensures Total(s, c) == Get(s[k], c) + Total(s[..k] + s[k + 1..], c)
  {
    if k > 0 {
      TotalRemove(s[1..], k - 1, c);
    }
    RemoveAtTail(s, k);
  }

  /** With no matches every player has zero points, so the standings list the
      roster in roster order with all counters cleared. */
  lemma NoMatchesKeepRosterOrder(roster: seq<Player>)
    ensures Standings(roster, []) == ZeroCounters(roster)
  {
    SortKeepsOrdered(ZeroCounters(roster));
  }

  /** One rendered table row: the rank shown in the first cell and the five
      numbers/names after it. */
  datatype StandingsRow = StandingsRow(
    rank: nat,
    name: string,
    played: nat,
    wins: nat,
    losses: nat,
    points: nat)

  /** The table rows for a sorted list: the player at position i shows rank
      i + 1, so ranks run 1..n with no gaps and no ties. */
  function RankRows(sorted: seq<Player>): (rows: seq<StandingsRow>)
    ensures |rows| == |sorted|
    ensures forall i :: 0 <= i < |rows| ==> rows[i].rank == i + 1
    ensures forall i :: 0 <= i < |rows| ==>
              rows[i].name == sorted[i].name && rows[i].points == sorted[i].points &&
              rows[i].played == sorted[i].played && rows[i].wins == sorted[i].wins &&
              rows[i].losses == sorted[i].losses
  {
    var rows := seq(|sorted|, i requires 0 <= i < |sorted| =>
      var p := sorted[i];
      StandingsRow(i + 1, p.name, p.played, p.wins, p.losses, p.points));
    rows
  }
}

=== FILE: history.dfy ===
/** The match-history lists the pages render under the standings: the store's
    listing reversed, last listed match first, each side named by a roster lookup that falls back to "Unknown". */
module MatchHistory {
  import opened Tournament
  import opened Engine

  /** The name shown for an id: that of the first roster player carrying it,
      or "Unknown" when no player does. */
  function NameOf(roster: seq<Player>, id: string): (name: string)
    ensures (forall k :: 0 <= k < |roster| ==> roster[k].id != id) ==> name == "Unknown"
    ensures forall k ::
              (0 <= k < |roster| && roster[k].id == id &&
               forall j :: 0 <= j < k ==> roster[j].id != id) ==> name == roster[k].name
  {
    if |roster| == 0 then "Unknown"
    else if roster[0].id == id then roster[0].name
    else
      var rest := NameOf(roster[1..], id);
      assert forall k :: 1 <= k < |roster| ==> roster[1..][k - 1] == roster[k];
      rest
  }

  /** The name shown is that of the player the standings credit for the id:
      both go through the same first-match lookup. */
  lemma NameOfIsResolved(roster: seq<Player>, id: string)
    ensures Resolve(roster, id).None? ==> NameOf(roster, id) == "Unknown"
    ensures Resolve(roster, id).Some? ==>
              NameOf(roster, id) == roster[Resolve(roster, id).value].name
  {
    var ids := Ids(roster);
    match Resolve(roster, id)
    case None =>
      assert forall k :: 0 <= k < |roster| ==> ids[k] == roster[k].id;
    case Some(k) =>
      assert forall j :: 0 <= j < k ==> ids[j] == roster[j].id;
  }

  /** `[...s].reverse()`: the last element first. */
  function Reversed<T>(s: seq<T>): (r: seq<T>)
    ensures |r| == |s|
    ensures forall i :: 0 <= i < |s| ==> r[i] == s[|s| - 1 - i]
  {
    if |s| == 0 then [] else [s[|s| - 1]] + Reversed(s[..|s| - 1])
  }

  /** One history card. The highlight flags say which name is shown in the
      winner's colour. */
  datatype Entry = Entry(
    matchId: string,
    player1Name: string,
    player2Name: string,
    winnerName: string,
    game: string,
    player1Highlighted: bool,
    player2Highlighted: bool)

  /** What the history shows: a placeholder when there are no matches,
      otherwise one card per match. */
  datatype History = NoMatches | Cards(entries: seq<Entry>)

  /** The card of one match. A side is highlighted only when `winner` is
      exactly that side's id; the winner line is a lookup of `winner` itself. */
  function CardOf(roster: seq<Player>, m: Match): (e: Entry)
    ensures e.matchId == m.id && e.game == m.game
    ensures e.player1Highlighted <==> m.winner == m.player1
    ensures e.player2Highlighted <==> m.winner == m.player2
    ensures e.player1Name == NameOf(roster, m.player1)
    ensures e.player2Name == NameOf(roster, m.player2)
    ensures e.winnerName == NameOf(roster, m.winner)
  {
    Entry(m.id, NameOf(roster, m.player1), NameOf(roster, m.player2),
          NameOf(roster, m.winner), m.game,
          m.winner == m.player1, m.winner == m.player2)
  }

  /** The history of a match collection: last listed first. */
  function ShowHistory(roster: seq<Player>, ms: seq<Match>): (h: History)
    ensures h.NoMatches? <==> |ms| == 0
    ensures h.Cards? ==> |h.entries| == |ms|
    ensures h.Cards? ==> forall i :: 0 <= i < |ms| ==>
              h.entries[i] == CardOf(roster, ms[|ms| - 1 - i])
  {
    if |ms| == 0 then NoMatches
    else Cards(seq(|ms|, i requires 0 <= i < |ms| => CardOf(roster, Reversed(ms)[i])))
  }

  /** A match listed after all the others appears at the top, above the cards
      already shown. */
  lemma LastListedOnTop(roster: seq<Player>, ms: seq<Match>, m: Match)
    ensures ShowHistory(roster, ms + [m]).Cards?
    ensures ShowHistory(roster, ms + [m]).entries[0] == CardOf(roster, m)
    ensures |ms| > 0 ==> ShowHistory(roster, ms + [m]).entries[1..] == ShowHistory(roster, ms).entries
  {
    var h := ShowHistory(roster, ms + [m]);
    DropLastAppend(ms, m);
    if |ms| > 0 {
      var shown := ShowHistory(roster, ms);
      assert forall i :: 0 <= i < |ms| ==> h.entries[1..][i] == shown.entries[i];
    }
  }

  /** Highlight and standings agree whenever the winner is one of the two
      players: the highlighted side is the side credited with the win. */
  lemma HighlightMatchesCredit(roster: seq<Player>, m: Match)
    requires m.winner == m.player1 || m.winner == m.player2
    ensures CardOf(roster, m).player1Highlighted <==> CreditedWinner(m) == m.player1
    ensures CardOf(roster, m).player2Highlighted <==> CreditedWinner(m) == m.player2
  {
  }

  /** A winner naming neither player highlights neither side, yet the
      standings still give the win to player2 and the winner line reads the
      lookup of that foreign id. */
  lemma ForeignWinner(roster: seq<Player>, m: Match)
    requires m.winner != m.player1 && m.winner != m.player2
    ensures !CardOf(roster, m).player1Highlighted && !CardOf(roster, m).player2Highlighted
    ensures CreditedWinner(m) == m.player2 && CreditedLoser(m) == m.player1
    ensures Resolved(roster, m) && m.player1 != m.player2 ==>
              Credit(roster, m, m.player2).wins == 1 && Credit(roster, m, m.player1).losses == 1
  {
  }
}

=== FILE: legacy_admin.dfy ===
/** The legacy single-group admin page (group A only). It carries its own copy
    of the standings engine, which recomputes the held roster's counters in
    place and renders a sorted copy, and its own name lookup for the history. */
module LegacyAdmin {
  import opened Tournament
  import opened Ranking
  import opened Engine
  import opened MatchHistory
  import AdminGroups

  /** What `updateStandings` leaves behind: the held roster, its counters
      recomputed in place, and the rendered table. */
  datatype Update = Update(roster: seq<Player>, table: seq<StandingsRow>)

  function UpdateStandings(roster: seq<Player>, ms: seq<Match>): (r: Update)
    ensures SameIdentity(r.roster, roster)
    ensures r.roster == Counters(roster, ms)
    ensures |r.table| == |roster|
    ensures forall i :: 0 <= i < |r.table| ==> r.table[i].rank == i + 1
    ensures forall i, j :: 0 <= i < j < |r.table| ==> r.table[i].points >= r.table[j].points
  {
    CountersKeepRoster(roster, ms);
    var held := Counters(roster, ms);
    var sorted := SortByPoints(held);
    Update(held, RankRows(sorted))
  }

  /** The legacy copy and the four-group copy render the same table for the
      same roster and matches. */
  lemma SameTableAsAdminPage(roster: seq<Player>, ms: seq<Match>)
    ensures UpdateStandings(roster, ms).table == AdminGroups.AdminTable(GroupState(roster, ms))
  {
  }

  /** The counters left in the held roster feed the next pass, which gives the
      same result again. */
  lemma UpdateIsIdempotent(roster: seq<Player>, ms: seq<Match>)
    ensures UpdateStandings(UpdateStandings(roster, ms).roster, ms) == UpdateStandings(roster, ms)
  {
    RecomputeIsIdempotent(roster, ms);
  }

  /** `getPlayerNameById`: the name of the player the engine would credit for
      the id, or "Unknown" when no roster player has it. */
  function NameById(roster: seq<Player>, id: string): (name: string)
    ensures Resolve(roster, id).None? ==> name == "Unknown"
    ensures Resolve(roster, id).Some? ==> name == roster[Resolve(roster, id).value].name
  {
    NameOfIsResolved(roster, id);
    NameOf(roster, id)
  }

  /** The legacy history: the placeholder for no matches, otherwise the
      matches last listed first, names from NameById. */
  function History(roster: seq<Player>, ms: seq<Match>): (h: MatchHistory.History)
    ensures h.NoMatches? <==> |ms| == 0
    ensures h.Cards? ==> |h.entries| == |ms|
    ensures h.Cards? ==> forall i :: 0 <= i < |ms| ==>
              && h.entries[i].matchId == ms[|ms| - 1 - i].id
              && h.entries[i].player1Name == NameById(roster, ms[|ms| - 1 - i].player1)
              && h.entries[i].player2Name == NameById(roster, ms[|ms| - 1 - i].player2)
              && h.entries[i].winnerName == NameById(roster, ms[|ms| - 1 - i].winner)
  {
    ShowHistory(roster, ms)
  }
}

=== FILE: public_view.dfy ===
/** The public group page: its standings table, kept as a list of rows keyed
    by player id and reordered in place, the row positions it remembers to
    animate rank changes, and the decision between the group and the
    "no group" placeholder. */
module PublicGroups {
  import opened Tournament
  import opened Ranking
  import opened Engine
  import opened MatchHistory
  import opened TableRows

  // ---------------------------------------------------------------------
  // Remembered row positions and rank-change offsets.
  // ---------------------------------------------------------------------

  /** Each current row's index recorded under its id, rows without an id
      skipped, a later row overwriting an earlier one with the same id.
      Entries of earlier passes for ids no longer in the table stay. */
  function RecordPositions(rows: seq<string>, prev: map<string, nat>): (r: map<string, nat>)
    ensures forall id :: id in r <==> id in prev || (id != "" && id in rows)
    ensures forall id :: id in prev && id !in rows ==> r[id] == prev[id]
    ensures forall i :: 0 <= i < |rows| && rows[i] != "" ==>
              && rows[i] in r
              && i <= r[rows[i]] < |rows|
              && rows[r[rows[i]]] == rows[i]
    decreases |rows|
  {
    if |rows| == 0 then prev
    else
      var n := |rows| - 1;
      var p := RecordPositions(rows[..n], prev);
      RecordStep(rows[..n], rows[n], prev, p);
      assert rows == rows[..n] + [rows[n]];
      if rows[n] != "" then p[rows[n] := n] else p
  }

  /** Recording one more row keeps the three facts above. */
  lemma RecordStep(pre: seq<string>, x: string, prev: map<string, nat>, p: map<string, nat>)
    requires forall id :: id in p <==> id in prev || (id != "" && id in pre)
    requires forall id :: id in prev && id !in pre ==> p[id] == prev[id]
    requires forall i :: 0 <= i < |pre| && pre[i] != "" ==>
               && pre[i] in p
               && i <= p[pre[i]] < |pre|
               && pre[p[pre[i]]] == pre[i]
    ensures var rows := pre + [x];
            var r := if x != "" then p[x := |pre|] else p;
            && (forall id :: id in r <==> id in prev || (id != "" && id in rows))
            && (forall id :: id in prev && id !in rows ==> r[id] == prev[id])
            && (forall i :: 0 <= i < |rows| && rows[i] != "" ==>
                  && rows[i] in r
                  && i <= r[rows[i]] < |rows|
                  && rows[r[rows[i]]] == rows[i])
  {
    var rows := pre + [x];
    var r := if x != "" then p[x := |pre|] else p;
    assert forall id :: id in rows <==> id in pre || id == x;
    forall i | 0 <= i < |rows| && rows[i] != ""
      ensures rows[i] in r && i <= r[rows[i]] < |rows| && rows[r[rows[i]]] == rows[i]
    {
      if i == |pre| || rows[i] == x {
        assert r[rows[i]] == |pre|;
      } else {
        assert rows[i] == pre[i];
        assert r[rows[i]] == p[pre[i]];
        assert rows[p[pre[i]]] == pre[p[pre[i]]];
      }
    }
  }

  /** With no id repeated, the recorded index of each row is its position. */
  lemma PositionsOfDistinctRows(rows: seq<string>, prev: map<string, nat>)
    requires Distinct(rows)
    ensures forall i :: 0 <= i < |rows| && rows[i] != "" ==>
              RecordPositions(rows, prev)[rows[i]] == i
  {
    var r := RecordPositions(rows, prev);
    forall i | 0 <= i < |rows| && rows[i] != "" ensures r[rows[i]] == i {
      var j := r[rows[i]];
      assert rows[j] == rows[i];
    }
  }

  /** The offset each row of the reordered table would animate by: None when
      the row has no id or its id has no recorded index, otherwise the
      recorded index minus the new index. */
  function Offsets(prev: map<string, nat>, rows: seq<string>): (r: seq<Option<int>>)
    ensures |r| == |rows|
    ensures forall i :: 0 <= i < |rows| ==> (r[i].Some? <==> rows[i] != "" && rows[i] in prev)
    ensures forall i :: 0 <= i < |rows| && r[i].Some? ==> r[i].value == prev[rows[i]] - i
  {
    seq(|rows|, i requires 0 <= i < |rows| =>
      if rows[i] != "" && rows[i] in prev then Some(prev[rows[i]] - i) else None)
  }

  /** A row slides into place only when its offset is defined and non-zero. */
  predicate Animates(o: Option<int>)
  {
    o.Some? && o.value != 0
  }

  // ---------------------------------------------------------------------
  // One standings pass.
  // ---------------------------------------------------------------------

  /** The table body of one group (row ids, top to bottom) and the positions
      remembered for it. */
  datatype Table = Table(rows: seq<string>, previous: map<string, nat>)

  /** What a standings pass leaves behind: the table, the offsets of the rows
      (none when the group is hidden), the roster with its counters
      recomputed in place, and the cell values written for each ranked player. */
  datatype Pass = Pass(table: Table, offsets: seq<Option<int>>,
                       roster: seq<Player>, ranked: seq<StandingsRow>)

  /** The rows a pass works on: one per roster player, in roster order, but
      only when the table body is empty; otherwise the existing rows. */
  function RowsToReorder(rows: seq<string>, roster: seq<Player>): (r: seq<string>)
    ensures |rows| == 0 ==> r == Ids(roster)
    ensures |rows| > 0 ==> r == rows
  {
    if |rows| == 0 then Ids(roster) else rows
  }

  /** `showStandings` as written. When the group is visible the current row
      positions are recorded first, otherwise the remembered positions are
      dropped. The counters are recomputed, rows are created if the body is
      empty, each ranked player's row is moved to the end in standings order,
      and when visible the offsets are computed against the recorded positions. */
  function ShowStandings(table: Table, visible: bool, roster: seq<Player>, ms: seq<Match>): (r: Pass)
    ensures !visible ==> r.table.previous == map[] && |r.offsets| == 0
    ensures visible ==> |r.offsets| == |r.table.rows|
    ensures |table.rows| > 0 ==> multiset(r.table.rows) == multiset(table.rows)
    ensures |table.rows| == 0 ==> multiset(r.table.rows) == multiset(Ids(roster))
    ensures SameIdentity(r.roster, roster)
    ensures r.roster == Counters(roster, ms)
    ensures r.ranked == RankRows(SortByPoints(r.roster))
    ensures visible ==> r.table.previous == RecordPositions(table.rows, table.previous)
    ensures visible ==> r.offsets == Offsets(r.table.previous, r.table.rows)
    ensures |table.rows| > 0 && Distinct(table.rows) && Distinct(Ids(roster)) ==>
              r.table.rows == Keep(table.rows, Ids(Standings(roster, ms))) +
                              TableRows.Present(Ids(Standings(roster, ms)), table.rows)
  {
    var prev := if visible then RecordPositions(table.rows, table.previous) else map[];
    var counted := Counters(roster, ms);
    CountersKeepRoster(roster, ms);
    var sorted := SortByPoints(counted);
    var rows := Reorder(RowsToReorder(table.rows, roster), Ids(sorted));
    assert |table.rows| > 0 && Distinct(table.rows) && Distinct(Ids(roster)) ==>
             rows == Keep(table.rows, Ids(sorted)) + TableRows.Present(Ids(sorted), table.rows) by {
      if |table.rows| > 0 && Distinct(table.rows) && Distinct(Ids(roster)) {
        StandingIds(roster, ms);
        ReorderPartition(table.rows, Ids(sorted));
      }
    }
    var offsets := if visible then Offsets(prev, rows) else [];
    Pass(Table(rows, prev), offsets, counted, RankRows(sorted))
  }

  /** Visibility and the table's state only steer the display: the counters
      and the ranked cell values are the same whatever they are. */
  lemma DisplayStateIrrelevant(t1: Table, v1: bool, t2: Table, v2: bool,
                               roster: seq<Player>, ms: seq<Match>)
    ensures ShowStandings(t1, v1, roster, ms).roster == Counters(roster, ms)
    ensures ShowStandings(t1, v1, roster, ms).roster == ShowStandings(t2, v2, roster, ms).roster
    ensures ShowStandings(t1, v1, roster, ms).ranked == ShowStandings(t2, v2, roster, ms).ranked
    ensures ShowStandings(t1, v1, roster, ms).ranked == RankRows(Standings(roster, ms))
  {
  }

  /** The ids of the standings are the roster's ids rearranged, repeats
      included. */
  lemma StandingIdsPermutation(roster: seq<Player>, ms: seq<Match>)
    ensures multiset(Ids(Standings(roster, ms))) == multiset(Ids(roster))
  {
    var counted := Counters(roster, ms);
    SameIdentityIds(counted, roster);
    IdsPermutation(Standings(roster, ms), counted);
  }

  /** For a roster without repeated ids, no standings id repeats either. */
  lemma StandingIds(roster: seq<Player>, ms: seq<Match>)
    requires Distinct(Ids(roster))
    ensures Distinct(Ids(Standings(roster, ms)))
    ensures multiset(Ids(Standings(roster, ms))) == multiset(Ids(roster))
  {
    StandingIdsPermutation(roster, ms);
    DistinctPermutation(Ids(roster), Ids(Standings(roster, ms)));
  }

  /** On an empty table body the pass builds one row per player and leaves
      them in standings order. */
  lemma FreshTableShowsStandings(table: Table, visible: bool, roster: seq<Player>, ms: seq<Match>)
    requires |table.rows| == 0
    ensures ShowStandings(table, visible, roster, ms).table.rows == Ids(Standings(roster, ms))
  {
    StandingIdsPermutation(roster, ms);
    ReorderToKeys(Ids(roster), Ids(Standings(roster, ms)));
  }

  /** When the rows already list exactly the roster's players, the pass puts
      them in standings order. */
  lemma SteadyTableShowsStandings(table: Table, visible: bool, roster: seq<Player>, ms: seq<Match>)
    requires |table.rows| > 0
    requires multiset(table.rows) == multiset(Ids(roster))
    ensures ShowStandings(table, visible, roster, ms).table.rows == Ids(Standings(roster, ms))
  {
    StandingIdsPermutation(roster, ms);
    ReorderToKeys(table.rows, Ids(Standings(roster, ms)));
  }

  /** A visible pass over a table without repeated ids reports, for every row
      that was already there, the distance it moved: its old index minus its
      new index, positive when it moved up. */
  lemma OffsetIsMove(table: Table, roster: seq<Player>, ms: seq<Match>)
    requires Distinct(table.rows)
    ensures var r := ShowStandings(table, true, roster, ms);
            forall i, j :: 0 <= i < |r.table.rows| && 0 <= j < |table.rows| &&
                           r.table.rows[i] == table.rows[j] && table.rows[j] != "" ==>
                             r.offsets[i] == Some(j - i)
  {
    var r := ShowStandings(table, true, roster, ms);
    assert r.offsets == Offsets(RecordPositions(table.rows, table.previous), r.table.rows);
    forall i, j | 0 <= i < |r.table.rows| && 0 <= j < |table.rows| &&
                  r.table.rows[i] == table.rows[j] && table.rows[j] != ""
      ensures r.offsets[i] == Some(j - i)
    {
      OffsetAt(table.rows, table.previous, r.table.rows, i, j);
    }
  }

  lemma OffsetAt(rows: seq<string>, prev: map<string, nat>, moved: seq<string>, i: nat, j: nat)
    requires Distinct(rows)
    requires i < |moved| && j < |rows| && moved[i] == rows[j] && rows[j] != ""
    ensures Offsets(RecordPositions(rows, prev), moved)[i] == Some(j - i)
  {
    var m := RecordPositions(rows, prev);
    PositionsOfDistinctRows(rows, prev);
    assert rows[j] in m && m[rows[j]] == j;
    var o := Offsets(m, moved);
    assert o[i] == Some(m[moved[i]] - i);
    assert m[moved[i]] == j;
    assert o[i] == Some(j - i);
  }

  /** If a visible pass leaves the rows where they were, no row animates. */
  lemma UnchangedOrderDoesNotAnimate(table: Table, roster: seq<Player>, ms: seq<Match>)
    requires Distinct(table.rows)
    requires ShowStandings(table, true, roster, ms).table.rows == table.rows
    ensures forall i :: 0 <= i < |table.rows| ==>
              !Animates(ShowStandings(table, true, roster, ms).offsets[i])
  {
    var r := ShowStandings(table, true, roster, ms);
    forall i | 0 <= i < |table.rows| ensures !Animates(r.offsets[i]) {
      if table.rows[i] != "" {
        OffsetAt(table.rows, table.previous, r.table.rows, i, i);
      }
    }
  }

  /** The four group tabs. */
  datatype GroupId = A | B | C | D

  /** A tab click forgets the remembered positions of the clicked group and
      keeps those of the others. */
  function TabClick(remembered: map<GroupId, map<string, nat>>, g: GroupId): (r: map<GroupId, map<string, nat>>)
    ensures g in r && |r[g]| == 0
    ensures forall h :: h != g ==> (h in r <==> h in remembered)
    ensures forall h :: h != g && h in remembered ==> r[h] == remembered[h]
  {
    remembered[g := map[]]
  }

  // ---------------------------------------------------------------------
  // Finding: rows are built only for an empty table.
  // ---------------------------------------------------------------------

  /** When the roster no longer matches the rows (the group was cleared or
      saved anew while the page is open), the as-written pass keeps the old
      rows: a cleared group keeps showing its former players. */
  lemma StaleRowsAsWritten()
    ensures var t := Table(["a", "b"], map[]);
            var r := ShowStandings(t, false, [], []);
            r.table.rows == ["a", "b"] && |Standings([], [])| == 0
  {
  }

  /** The corrected pass: rows are rebuilt from the roster whenever they do not
      list exactly the roster's players, not only when the body is empty. */
  function RowsToReorderSynced(rows: seq<string>, roster: seq<Player>): (r: seq<string>)
    ensures multiset(r) == multiset(Ids(roster))
    ensures multiset(rows) == multiset(Ids(roster)) ==> r == rows
  {
    if multiset(rows) == multiset(Ids(roster)) then rows else Ids(roster)
  }

  function ShowStandingsSynced(table: Table, visible: bool, roster: seq<Player>, ms: seq<Match>): (r: Pass)
    ensures !visible ==> r.table.previous == map[] && |r.offsets| == 0
    ensures SameIdentity(r.roster, roster)
    ensures r.ranked == RankRows(Standings(roster, ms))
    ensures r.table.rows == Ids(Standings(roster, ms))
  {
    var prev := if visible then RecordPositions(table.rows, table.previous) else map[];
    var counted := Counters(roster, ms);
    var sorted := SortByPoints(counted);
    var start := RowsToReorderSynced(table.rows, roster);
    var rows := Reorder(start, Ids(sorted));
    var offsets := if visible then Offsets(prev, rows) else [];
    CountersKeepRoster(roster, ms);
    SyncedRowsAreStandings(table.rows, roster, ms);
    Pass(Table(rows, prev), offsets, counted, RankRows(sorted))
  }

  lemma SyncedRowsAreStandings(rows: seq<string>, roster: seq<Player>, ms: seq<Match>)
    ensures Reorder(RowsToReorderSynced(rows, roster), Ids(Standings(roster, ms))) ==
            Ids(Standings(roster, ms))
  {
    var start := RowsToReorderSynced(rows, roster);
    StandingIdsPermutation(roster, ms);
    ReorderToKeys(start, Ids(Standings(roster, ms)));
  }

  /** Where the as-written pass already works (an empty body, or rows listing
      the roster's players) the corrected one does exactly the same. */
  lemma SyncedAgreesOnMatchingRows(table: Table, visible: bool, roster: seq<Player>, ms: seq<Match>)
    requires |table.rows| == 0 || multiset(table.rows) == multiset(Ids(roster))
    ensures ShowStandingsSynced(table, visible, roster, ms) == ShowStandings(table, visible, roster, ms)
  {
    if |table.rows| == 0 {
      if multiset(table.rows) == multiset(Ids(roster)) {
        assert |Ids(roster)| == |multiset(Ids(roster))| == 0;
      }
    }
  }

  // ---------------------------------------------------------------------
  // Finding: an empty group never goes live.
  // ---------------------------------------------------------------------

  /** The initial read shows the "no group" placeholder when the document is
      missing, has no `players`, or has an empty list. */
  predicate ShowsNoGroup(doc: GroupDoc)
  {
    doc.Missing? || doc.players.None? || |doc.players.value| == 0
  }

  /** The group panel: whether the placeholder is shown, whether the two
      change listeners are attached, and the participants listed. */
  datatype Panel = Panel(placeholder: bool, listening: bool, participants: seq<Player>)

  /** `loadGroup` as written: on the placeholder path it returns before
      attaching the listeners. */
  function LoadGroupAsWritten(doc: GroupDoc): (p: Panel)
    ensures p.placeholder <==> ShowsNoGroup(doc)
    ensures p.listening <==> !ShowsNoGroup(doc)
    ensures !p.placeholder ==> p.participants == PlayersOf(doc)
  {
    if ShowsNoGroup(doc) then Panel(true, false, []) else Panel(false, true, doc.players.value)
  }

  /** A roster notification: with no listener nothing happens; a missing
      document or an empty list is ignored; otherwise the placeholder is
      hidden and the participants are listed. */
  function OnRosterNotice(p: Panel, doc: GroupDoc): (r: Panel)
    ensures !p.listening || doc.Missing? ==> r == p
    ensures p.listening && doc.Present? && |PlayersOf(doc)| == 0 ==> r == p
    ensures p.listening && doc.Present? && |PlayersOf(doc)| > 0 ==>
              !r.placeholder && r.participants == PlayersOf(doc)
  {
    if !p.listening || doc.Missing? then p
    else
      var players := PlayersOf(doc);
      if |players| == 0 then p else Panel(false, true, players)
  }

  /** Notifications in arrival order. */
  function OnRosterNotices(p: Panel, docs: seq<GroupDoc>): Panel
    decreases |docs|
  {
    if |docs| == 0 then p else OnRosterNotices(OnRosterNotice(p, docs[0]), docs[1..])
  }

  /** A group that is empty when the page loads stays on the placeholder for
      good, whatever rosters are saved afterwards: nobody is listening. */
  lemma {:induction false} EmptyAtLoadNeverGoesLive(doc: GroupDoc, later: seq<GroupDoc>)
    requires ShowsNoGroup(doc)
    ensures OnRosterNotices(LoadGroupAsWritten(doc), later) == LoadGroupAsWritten(doc)
    ensures OnRosterNotices(LoadGroupAsWritten(doc), later).placeholder
    decreases |later|
  {
    if |later| > 0 {
      EmptyAtLoadNeverGoesLive(doc, later[1..]);
    }
  }

  /** The corrected load: the placeholder decision is the same, but the
      listeners are attached in every case. */
  function LoadGroup(doc: GroupDoc): (p: Panel)
    ensures p.placeholder <==> ShowsNoGroup(doc)
    ensures p.listening
    ensures !p.placeholder ==> p.participants == PlayersOf(doc)
  {
    if ShowsNoGroup(doc) then Panel(true, true, []) else Panel(false, true, doc.players.value)
  }

  /** With the corrected load, the panel always reflects the last notification
      that carried players: once a roster is saved the group goes live, even
      if it was empty at load. */
  lemma {:induction false} LoadedGroupFollowsRoster(p: Panel, docs: seq<GroupDoc>, k: nat)
    requires p.listening
    requires k < |docs| && docs[k].Present? && |PlayersOf(docs[k])| > 0
    requires forall j :: k < j < |docs| ==> docs[j].Missing? || |PlayersOf(docs[j])| == 0
    ensures !OnRosterNotices(p, docs).placeholder
    ensures OnRosterNotices(p, docs).participants == PlayersOf(docs[k])
    decreases |docs|
  {
    var q := OnRosterNotice(p, docs[0]);
    if k == 0 {
      StaysPut(q, docs[1..]);
    } else {
      LoadedGroupFollowsRoster(q, docs[1..], k - 1);
    }
  }

  lemma {:induction false} StaysPut(p: Panel, docs: seq<GroupDoc>)
    requires p.listening
    requires forall j :: 0 <= j < |docs| ==> docs[j].Missing? || |PlayersOf(docs[j])| == 0
    ensures OnRosterNotices(p, docs) == p
    decreases |docs|
  {
    if |docs| > 0 {
      StaysPut(p, docs[1..]);
    }
  }

  /** A match notification re-reads the group document: when it is missing
      nothing is redrawn; otherwise the standings (with the as-written pass)
      and the history are drawn for `players ?? []`. A table that already
      has rows keeps exactly those rows, whatever the roster now is. */
  function OnMatchesNotice(table: Table, visible: bool, doc: GroupDoc, ms: seq<Match>): (r: Option<(Pass, History)>)
    ensures r.None? <==> doc.Missing?
    ensures r.Some? ==> r.value.0.ranked == RankRows(Standings(PlayersOf(doc), ms))
    ensures r.Some? ==> r.value.1 == ShowHistory(PlayersOf(doc), ms)
    ensures r.Some? && |table.rows| > 0 ==>
              multiset(r.value.0.table.rows) == multiset(table.rows)
    ensures r.Some? &&
            (|table.rows| == 0 || multiset(table.rows) == multiset(Ids(PlayersOf(doc)))) ==>
              r.value.0.table.rows == Ids(Standings(PlayersOf(doc), ms))
  {
    if doc.Missing? then None
    else
      var players := PlayersOf(doc);
      var pass := ShowStandings(table, visible, players, ms);
      DisplayStateIrrelevant(table, visible, table, visible, players, ms);
      assert |table.rows| == 0 || multiset(table.rows) == multiset(Ids(players)) ==>
               pass.table.rows == Ids(Standings(players, ms)) by {
        if |table.rows| == 0 {
          FreshTableShowsStandings(table, visible, players, ms);
        } else if multiset(table.rows) == multiset(Ids(players)) {
          SteadyTableShowsStandings(table, visible, players, ms);
        }
      }
      Some((pass, ShowHistory(players, ms)))
  }

  /** The stale-rows finding seen through the handler: a group cleared while
      its table shows two players keeps showing them after the notification. */
  lemma ClearedGroupKeepsRowsAsWritten()
    ensures var r := OnMatchesNotice(Table(["a", "b"], map[]), false, Present(Some([])), []);
            r.Some? && r.value.0.table.rows == ["a", "b"] && |r.value.0.ranked| == 0
  {
    StaleRowsAsWritten();
  }

  /** The corrected handler: the same notification drawn with the corrected
      pass, so the table always follows the roster. */
  function OnMatchesNoticeSynced(table: Table, visible: bool, doc: GroupDoc, ms: seq<Match>): (r: Option<(Pass, History)>)
    ensures r.None? <==> doc.Missing?
    ensures r.Some? ==> r.value.0.ranked == RankRows(Standings(PlayersOf(doc), ms))
    ensures r.Some? ==> r.value.1 == ShowHistory(PlayersOf(doc), ms)
    ensures r.Some? ==> r.value.0.table.rows == Ids(Standings(PlayersOf(doc), ms))
  {
    if doc.Missing? then None
    else
      var players := PlayersOf(doc);
      Some((ShowStandingsSynced(table, visible, players, ms), ShowHistory(players, ms)))
  }

  /** The two handlers differ only where the rows no longer match the roster. */
  lemma HandlersAgreeOnMatchingRows(table: Table, visible: bool, doc: GroupDoc, ms: seq<Match>)
    requires doc.Present?
    requires |table.rows| == 0 || multiset(table.rows) == multiset(Ids(PlayersOf(doc)))
    ensures OnMatchesNoticeSynced(table, visible, doc, ms) == OnMatchesNotice(table, visible, doc, ms)
  {
    SyncedAgreesOnMatchingRows(table, visible, PlayersOf(doc), ms);
  }
}

=== FILE: ranking.dfy ===
/** The ordering step of the standings: a stable sort by points, highest first,
    as `Array.prototype.sort` with the comparator `b.points - a.points` gives it
    (the built-in sort is stable since ES2019). */
module Ranking {
  import opened Tournament

  /** Points never increase down the list. */
  predicate NonIncreasing(s: seq<Player>)
  {
    forall i, j :: 0 <= i < j < |s| ==> s[i].points >= s[j].points
  }

  /** The players of `s` that have exactly `v` points, in their order in `s`. */
  function WithPoints(s: seq<Player>, v: nat): (r: seq<Player>)
    ensures forall p :: p in r <==> p in s && p.points == v
  {
    if |s| == 0 then []
    else (if s[0].points == v then [s[0]] else []) + WithPoints(s[1..], v)
  }

  lemma WithPointsCons(x: Player, s: seq<Player>, v: nat)
    ensures WithPoints([x] + s, v) == (if x.points == v then [x] else []) + WithPoints(s, v)
  {
    assert ([x] + s)[1..] == s;
  }

  /** Places `x` in front of the first player that does not have strictly
      more points: after every better player, before its equals. */
  function Insert(x: Player, t: seq<Player>): (r: seq<Player>)
    ensures multiset(r) == multiset(t) + multiset{x}
    ensures forall p :: p in r <==> p == x || p in t
  {
    if |t| == 0 || x.points >= t[0].points then [x] + t
    else
      assert t == [t[0]] + t[1..];
      [t[0]] + Insert(x, t[1..])
  }

  lemma {:induction false} InsertKeepsOrder(x: Player, t: seq<Player>)
    requires NonIncreasing(t)
    ensures NonIncreasing(Insert(x, t))
  {
    if |t| == 0 || x.points >= t[0].points {
    } else {
      InsertKeepsOrder(x, t[1..]);
      var rest := Insert(x, t[1..]);
      assert forall p :: p in rest ==> p.points <= t[0].points;
      assert Insert(x, t) == [t[0]] + rest;
    }
  }

  /** `x` lands ahead of every player with as many points that was already in
      `t`, and the players of each points value keep their order. */
  lemma {:induction false} InsertIsStable(x: Player, t: seq<Player>, v: nat)
    ensures WithPoints(Insert(x, t), v) == (if x.points == v then [x] else []) + WithPoints(t, v)
  {
    if |t| == 0 || x.points >= t[0].points {
      WithPointsCons(x, t, v);
    } else {
      var rest := Insert(x, t[1..]);
      var hx := if x.points == v then [x] else [];
      var h0 := if t[0].points == v then [t[0]] else [];
      var w1 := WithPoints(t[1..], v);
      assert Insert(x, t) == [t[0]] + rest;
      InsertIsStable(x, t[1..], v);
      WithPointsCons(t[0], rest, v);
      assert t == [t[0]] + t[1..];
      WithPointsCons(t[0], t[1..], v);
      SwapFront(h0, hx, w1);
    }
  }

  lemma SwapFront<T>(a: seq<T>, b: seq<T>, w: seq<T>)
    requires |a| == 0 || |b| == 0
    ensures a + (b + w) == b + (a + w)
  {
  }

  /** Stable insertion sort, points descending. */
  function SortByPoints(s: seq<Player>): (r: seq<Player>)
    ensures NonIncreasing(r)
    ensures multiset(r) == multiset(s)
    ensures |r| == |s|
    ensures forall v: nat :: WithPoints(r, v) == WithPoints(s, v)
  {
    if |s| == 0 then []
    else
      var sorted := SortByPoints(s[1..]);
      var r := Insert(s[0], sorted);
      InsertKeepsOrder(s[0], sorted);
      assert s == [s[0]] + s[1..];
      assert |r| == |multiset(r)|;
      assert forall v: nat :: WithPoints(r, v) == WithPoints(s, v) by {
        forall v: nat ensures WithPoints(r, v) == WithPoints(s, v) {
          InsertIsStable(s[0], sorted, v);
          WithPointsCons(s[0], s[1..], v);
        }
      }
      r
  }

  /** Sorting what is already in order changes nothing: a roster whose players
      all have equal points keeps its roster order. */
  lemma {:induction false} SortKeepsOrdered(s: seq<Player>)
    requires NonIncreasing(s)
    ensures SortByPoints(s) == s
  {
    if |s| > 0 {
      SortKeepsOrdered(s[1..]);
      assert s == [s[0]] + s[1..];
    }
  }

  lemma HeadIsBest(s: seq<Player>, p: Player)
    requires NonIncreasing(s)
    requires p in s
    ensures s[0].points >= p.points
  {
    var k :| 0 <= k < |s| && s[k] == p;
  }

  lemma WithPointsTail(s: seq<Player>, v: nat)
    requires |s| > 0
    ensures WithPoints(s[1..], v) ==
      if s[0].points == v then WithPoints(s, v)[1..] else WithPoints(s, v)
  {
    WithPointsCons(s[0], s[1..], v);
    assert s == [s[0]] + s[1..];
  }

  /** Two ordered lists that agree per points value start with the same player. */
  lemma SameFirst(a: seq<Player>, b: seq<Player>)
    requires |a| > 0
    requires NonIncreasing(a) && NonIncreasing(b)
    requires WithPoints(a, a[0].points) == WithPoints(b, a[0].points)
    requires |b| > 0 ==> WithPoints(a, b[0].points) == WithPoints(b, b[0].points)
    ensures |b| > 0 && a[0] == b[0]
  {
    var m := a[0].points;
    assert WithPoints(a, m) == [a[0]] + WithPoints(a[1..], m) by {
      WithPointsCons(a[0], a[1..], m);
      assert a == [a[0]] + a[1..];
    }
    var wb := WithPoints(b, m);
    assert wb == WithPoints(a, m);
    assert a[0] in wb;
    HeadIsBest(b, a[0]);
    var n := b[0].points;
    assert WithPoints(b, n) == [b[0]] + WithPoints(b[1..], n) by {
      WithPointsCons(b[0], b[1..], n);
      assert b == [b[0]] + b[1..];
    }
    var wa := WithPoints(a, n);
    assert wa == WithPoints(b, n);
    assert b[0] in wa;
    HeadIsBest(a, b[0]);
    assert m == n;
    assert WithPoints(a, m)[0] == a[0];
    assert WithPoints(b, m)[0] == b[0];
  }

  /** Any two lists ordered by points that agree on the order of every group
      of equal-points players are equal: the stable descending sort has exactly
      one possible result, so every stable sort returns what SortByPoints does. */
  lemma {:induction false} StableOrderIsUnique(a: seq<Player>, b: seq<Player>)
    requires NonIncreasing(a) && NonIncreasing(b)
    requires forall v: nat :: WithPoints(a, v) == WithPoints(b, v)
    ensures a == b
  {
    if |a| == 0 {
      if |b| > 0 {
        SameFirst(b, a);
      }
    } else {
      SameFirst(a, b);
      forall v: nat
        ensures WithPoints(a[1..], v) == WithPoints(b[1..], v)
      {
        WithPointsTail(a, v);
        WithPointsTail(b, v);
      }
      StableOrderIsUnique(a[1..], b[1..]);
      assert a == [a[0]] + a[1..];
      assert b == [b[0]] + b[1..];
    }
  }

  /** SortByPoints is the stable descending sort: any other ordering of the
      same players that is ordered by points and keeps equal-points players in
      their input order is the same list. */
  lemma SortIsTheStableSort(s: seq<Player>, other: seq<Player>)
    requires NonIncreasing(other)
    requires forall v: nat :: WithPoints(other, v) == WithPoints(s, v)
    ensures other == SortByPoints(s)
  {
    StableOrderIsUnique(other, SortByPoints(s));
  }
}

=== FILE: table_rows.dfy ===
/** The public standings table as a list of row keys (each row carries its
    player's id): rows are reordered by moving each player's row to the end
    of the table body in standings order. Generic in the key type. */
module TableRows {
  import opened Tournament

  /** Moves the first row with key `x` to the end, as looking it up with
      `querySelector` and re-appending it does; with no such row nothing moves. */
  function MoveToEnd<T(==)>(rows: seq<T>, x: T): (r: seq<T>)
    ensures multiset(r) == multiset(rows)
    ensures x !in rows ==> r == rows
    ensures x in rows ==> |r| == |rows| && r[|r| - 1] == x
    ensures x in rows ==>
              var k := FindIndex(rows, x).value;
              r[..|r| - 1] == rows[..k] + rows[k + 1..]
  {
    match FindIndex(rows, x)
    case None => rows
    case Some(k) =>
      SplitAt(rows, k);
      rows[..k] + rows[k + 1..] + [x]
  }

  /** Every key of `keys`, in order, moved to the end. */
  function Reorder<T(==)>(rows: seq<T>, keys: seq<T>): (r: seq<T>)
    ensures multiset(r) == multiset(rows)
    ensures |r| == |rows|
    decreases |keys|
  {
    if |keys| == 0 then rows else Reorder(MoveToEnd(rows, keys[0]), keys[1..])
  }

  /** The rows whose key is not in `keys`, in their order. */
  function Keep<T(==)>(rows: seq<T>, keys: seq<T>): seq<T>
  {
    if |rows| == 0 then []
    else (if rows[0] in keys then [] else [rows[0]]) + Keep(rows[1..], keys)
  }

  /** The keys that have a row, in the order of `keys`. */
  function Present<T(==)>(keys: seq<T>, rows: seq<T>): seq<T>
  {
    if |keys| == 0 then []
    else (if keys[0] in rows then [keys[0]] else []) + Present(keys[1..], rows)
  }

  lemma {:induction false} KeepSameOn<T>(rows: seq<T>, k1: seq<T>, k2: seq<T>)
    requires forall x :: x in rows ==> (x in k1 <==> x in k2)
    ensures Keep(rows, k1) == Keep(rows, k2)
    decreases |rows|
  {
    if |rows| > 0 {
      assert forall x :: x in rows[1..] ==> x in rows;
      KeepSameOn(rows[1..], k1, k2);
    }
  }

  lemma {:induction false} PresentSameOn<T>(keys: seq<T>, r1: seq<T>, r2: seq<T>)
    requires forall x :: x in keys ==> (x in r1 <==> x in r2)
    ensures Present(keys, r1) == Present(keys, r2)
    decreases |keys|
  {
    if |keys| > 0 {
      assert forall x :: x in keys[1..] ==> x in keys;
      PresentSameOn(keys[1..], r1, r2);
    }
  }

  lemma {:induction false} KeepConcat<T>(a: seq<T>, b: seq<T>, keys: seq<T>)
    ensures Keep(a + b, keys) == Keep(a, keys) + Keep(b, keys)
    decreases |a|
  {
    if |a| > 0 {
      KeepConcat(a[1..], b, keys);
      assert (a + b)[1..] == a[1..] + b;
    } else {
      assert a + b == b;
    }
  }

  lemma DistinctRemove<T>(rows: seq<T>, k: nat)
    requires Distinct(rows) && k < |rows|
    ensures Distinct(rows[..k] + rows[k + 1..] + [rows[k]])
    ensures rows[k] !in rows[..k] && rows[k] !in rows[k + 1..]
  {
    var s := rows[..k] + rows[k + 1..] + [rows[k]];
    forall i, j | 0 <= i < j < |s| ensures s[i] != s[j] {
      var oi := if i < k then i else i + 1;
      var oj := if j == |s| - 1 then k else if j < k then j else j + 1;
      assert s[i] == rows[oi] && s[j] == rows[oj];
    }
  }

  /** Moving a row of a table without repeated keys: the others keep their
      order, the moved row ends up last, and no key repeats. */
  lemma MoveDistinct<T>(rows: seq<T>, x: T, rest: seq<T>)
    requires Distinct(rows) && x in rows && x !in rest
    ensures Distinct(MoveToEnd(rows, x))
    ensures Keep(MoveToEnd(rows, x), rest) == Keep(rows, [x] + rest) + [x]
  {
    var k := FindIndex(rows, x).value;
    var before, after := rows[..k], rows[k + 1..];
    DistinctRemove(rows, k);
    assert MoveToEnd(rows, x) == before + after + [x];
    SplitAround(rows, k);
    assert rows == before + [x] + after;
    MovedKeep(before, after, x, rest);
  }

  lemma MovedKeep<T>(before: seq<T>, after: seq<T>, x: T, rest: seq<T>)
    requires x !in before && x !in after && x !in rest
    ensures Keep(before + after + [x], rest) == Keep(before + [x] + after, [x] + rest) + [x]
  {
    var xr := [x] + rest;
    KeepMovedRow(before, after, x, rest);
    KeepDroppedRow(before, after, x, xr);
    KeepSameOn(before, rest, xr);
    KeepSameOn(after, rest, xr);
  }

  lemma KeepSingle<T>(x: T, keys: seq<T>)
    ensures Keep([x], keys) == if x in keys then [] else [x]
  {
    assert Keep([x], keys) == (if x in keys then [] else [x]) + Keep([], keys);
  }

  lemma KeepMovedRow<T>(before: seq<T>, after: seq<T>, x: T, keys: seq<T>)
    requires x !in keys
    ensures Keep(before + after + [x], keys) == Keep(before, keys) + Keep(after, keys) + [x]
  {
    KeepConcat(before + after, [x], keys);
    KeepConcat(before, after, keys);
    KeepSingle(x, keys);
  }

  lemma KeepDroppedRow<T>(before: seq<T>, after: seq<T>, x: T, keys: seq<T>)
    requires x in keys
    ensures Keep(before + [x] + after, keys) == Keep(before, keys) + Keep(after, keys)
  {
    KeepConcat(before + [x], after, keys);
    KeepConcat(before, [x], keys);
    KeepSingle(x, keys);
  }

  /** With no key repeated on either side, reordering leaves the rows of
      players not in `keys` first, in their old relative order, followed by
      the rows of the listed players, in the order of `keys`. */
  lemma {:induction false} ReorderPartition<T>(rows: seq<T>, keys: seq<T>)
    requires Distinct(rows) && Distinct(keys)
    ensures Reorder(rows, keys) == Keep(rows, keys) + Present(keys, rows)
    decreases |keys|
  {
    if |keys| == 0 {
      KeepNone(rows);
    } else {
      var x, rest := keys[0], keys[1..];
      assert keys == [x] + rest;
      assert Distinct(rest);
      if x in rows {
        MoveDistinct(rows, x, rest);
        ReorderPartition(MoveToEnd(rows, x), rest);
        ReorderStepPresent(rows, keys);
      } else {
        ReorderPartition(rows, rest);
        ReorderStepAbsent(rows, keys);
      }
    }
  }

  lemma ReorderStepPresent<T>(rows: seq<T>, keys: seq<T>)
    requires |keys| > 0 && keys[0] in rows && Distinct(rows) && Distinct(keys)
    requires keys == [keys[0]] + keys[1..]
    requires Keep(MoveToEnd(rows, keys[0]), keys[1..]) == Keep(rows, keys) + [keys[0]]
    requires Reorder(MoveToEnd(rows, keys[0]), keys[1..]) ==
             Keep(MoveToEnd(rows, keys[0]), keys[1..]) + Present(keys[1..], MoveToEnd(rows, keys[0]))
    ensures Reorder(rows, keys) == Keep(rows, keys) + Present(keys, rows)
  {
    var x, rest := keys[0], keys[1..];
    PresentAfterMove(rows, x, rest);
    assert Present(keys, rows) == [x] + Present(rest, rows);
    AppendAssoc(Keep(rows, keys), [x], Present(rest, rows));
  }

  /** Moving a row does not change which keys have a row. */
  lemma PresentAfterMove<T>(rows: seq<T>, x: T, rest: seq<T>)
    ensures Present(rest, MoveToEnd(rows, x)) == Present(rest, rows)
  {
    var moved := MoveToEnd(rows, x);
    assert forall y :: y in rest ==> (y in moved <==> y in rows) by {
      assert forall y :: y in moved <==> y in multiset(rows);
    }
    PresentSameOn(rest, moved, rows);
  }

  lemma ReorderStepAbsent<T>(rows: seq<T>, keys: seq<T>)
    requires |keys| > 0 && keys[0] !in rows
    requires Reorder(rows, keys[1..]) == Keep(rows, keys[1..]) + Present(keys[1..], rows)
    ensures Reorder(rows, keys) == Keep(rows, keys) + Present(keys, rows)
  {
    var x, rest := keys[0], keys[1..];
    assert keys == [x] + rest;
    assert MoveToEnd(rows, x) == rows;
    KeepDropAbsent(rows, x, rest);
    PresentDropAbsent(rows, x, rest);
  }

  lemma KeepDropAbsent<T>(rows: seq<T>, x: T, rest: seq<T>)
    requires x !in rows
    ensures Keep(rows, [x] + rest) == Keep(rows, rest)
  {
    assert forall y :: y in rows ==> (y in rest <==> y in [x] + rest);
    KeepSameOn(rows, rest, [x] + rest);
  }

  lemma PresentDropAbsent<T>(rows: seq<T>, x: T, rest: seq<T>)
    requires x !in rows
    ensures Present([x] + rest, rows) == Present(rest, rows)
  {
    assert ([x] + rest)[1..] == rest;
    assert Present([x] + rest, rows) == [] + Present(rest, rows);
  }

  lemma {:induction false} KeepNone<T>(rows: seq<T>)
    ensures Keep(rows, []) == rows
    decreases |rows|
  {
    if |rows| > 0 {
      KeepNone(rows[1..]);
    }
  }

  lemma {:induction false} KeepAllGone<T>(rows: seq<T>, keys: seq<T>)
    requires forall x :: x in rows ==> x in keys
    ensures |Keep(rows, keys)| == 0
    decreases |rows|
  {
    if |rows| > 0 {
      assert forall x :: x in rows[1..] ==> x in rows;
      KeepAllGone(rows[1..], keys);
    }
  }

  lemma {:induction false} PresentAll<T>(keys: seq<T>, rows: seq<T>)
    requires forall x :: x in keys ==> x in rows
    ensures Present(keys, rows) == keys
    decreases |keys|
  {
    if |keys| > 0 {
      assert forall x :: x in keys[1..] ==> x in keys;
      PresentAll(keys[1..], rows);
      assert keys == [keys[0]] + keys[1..];
    }
  }

  /** A key's first row in `u + m` is its first row in `u` whenever `u` has one. */
  lemma FirstInPrefix<T>(u: seq<T>, m: seq<T>, x: T)
    requires x in u
    ensures FindIndex(u + m, x) == FindIndex(u, x)
  {
    var k := FindIndex(u, x).value;
    assert (u + m)[k] == x;
    assert forall j :: 0 <= j < k ==> (u + m)[j] == u[j];
  }

  /** Moving a key found in the unmoved prefix `u` takes that row out of `u`
      and puts it after the rows `m` already moved. */
  lemma MoveFromFront<T>(u: seq<T>, m: seq<T>, x: T)
    requires x in u
    ensures var k := FindIndex(u, x).value;
            MoveToEnd(u + m, x) == (u[..k] + u[k + 1..]) + (m + [x])
  {
    var k := FindIndex(u, x).value;
    FirstInPrefix(u, m, x);
    MoveInPrefix(u, m, x, k);
    Reassociate(u[..k], u[k + 1..], m, [x]);
  }

  lemma MoveInPrefix<T>(u: seq<T>, m: seq<T>, x: T, k: nat)
    requires k < |u| && FindIndex(u + m, x) == Some(k)
    ensures MoveToEnd(u + m, x) == (u[..k] + (u[k + 1..] + m)) + [x]
  {
    var rows := u + m;
    MoveAt(rows, x, k);
    TakeInPrefix(u, m, k);
    DropInPrefix(u, m, k + 1);
  }

  /** Moving the row at the key's first index `k`. */
  lemma MoveAt<T>(rows: seq<T>, x: T, k: nat)
    requires FindIndex(rows, x) == Some(k)
    ensures k < |rows|
    ensures MoveToEnd(rows, x) == rows[..k] + rows[k + 1..] + [x]
  {
  }

  lemma TakeInPrefix<T>(u: seq<T>, m: seq<T>, k: nat)
    requires k <= |u|
    ensures (u + m)[..k] == u[..k]
  {
  }

  lemma Reassociate<T>(a: seq<T>, b: seq<T>, c: seq<T>, d: seq<T>)
    ensures (a + (b + c)) + d == (a + b) + (c + d)
  {
    AppendAssoc(a, b + c, d);
    AppendAssoc(b, c, d);
    AppendAssoc(a, b, c + d);
  }

  lemma DropInPrefix<T>(u: seq<T>, m: seq<T>, k: nat)
    requires k <= |u|
    ensures (u + m)[k..] == u[k..] + m
  {
    var l, r := (u + m)[k..], u[k..] + m;
    assert |l| == |r|;
    forall i | 0 <= i < |l| ensures l[i] == r[i] {
      if i < |u| - k {
        assert l[i] == u[k + i];
      } else {
        assert l[i] == m[i - (|u| - k)];
      }
    }
  }

  /** Taking out one row with key `x` takes one `x` out of the multiset. */
  lemma RemoveOne<T>(u: seq<T>, k: nat)
    requires k < |u|
    ensures multiset(u[..k] + u[k + 1..]) == multiset(u) - multiset{u[k]}
  {
    assert u == u[..k] + [u[k]] + u[k + 1..];
  }

  /** Once the unmoved rows `u` hold exactly the remaining keys, reordering
      moves each key's first unmoved row to the end in key order. A repeated
      key finds its next unmoved row, because the rows found before it have
      already gone to the end. */
  lemma {:induction false} ReorderTail<T>(u: seq<T>, m: seq<T>, keys: seq<T>)
    requires multiset(u) == multiset(keys)
    ensures Reorder(u + m, keys) == m + keys
    decreases |keys|
  {
    if |keys| == 0 {
      assert |u| == |multiset(u)| == 0;
      assert u + m == m;
    } else {
      var x, rest := keys[0], keys[1..];
      var u' := TakeOut(u, keys);
      MoveFromFront(u, m, x);
      ReorderStep(u + m, keys, u' + (m + [x]));
      ReorderTail(u', m + [x], rest);
      ConsAfter(m, keys);
    }
  }

  lemma ReorderStep<T>(rows: seq<T>, keys: seq<T>, moved: seq<T>)
    requires |keys| > 0 && moved == MoveToEnd(rows, keys[0])
    ensures Reorder(rows, keys) == Reorder(moved, keys[1..])
  {
  }

  lemma ConsAfter<T>(m: seq<T>, keys: seq<T>)
    requires |keys| > 0
    ensures (m + [keys[0]]) + keys[1..] == m + keys
  {
    AppendAssoc(m, [keys[0]], keys[1..]);
    assert [keys[0]] + keys[1..] == keys;
  }

  /** The unmoved rows once the first row with the first key has gone. */
  lemma TakeOut<T>(u: seq<T>, keys: seq<T>) returns (u': seq<T>)
    requires |keys| > 0 && multiset(u) == multiset(keys)
    ensures keys[0] in u
    ensures u' == u[..FindIndex(u, keys[0]).value] + u[FindIndex(u, keys[0]).value + 1..]
    ensures multiset(u') == multiset(keys[1..])
  {
    var x := keys[0];
    assert keys == [x] + keys[1..];
    assert x in multiset(keys);
    var k := FindIndex(u, x).value;
    u' := u[..k] + u[k + 1..];
    RemoveOne(u, k);
  }

  /** When the table holds exactly the listed keys (repeats included),
      reordering puts the rows in the order of `keys`. */
  lemma ReorderToKeys<T>(rows: seq<T>, keys: seq<T>)
    requires multiset(rows) == multiset(keys)
    ensures Reorder(rows, keys) == keys
  {
    ReorderTail(rows, [], keys);
    assert rows + [] == rows;
  }

  /** Reordering an already ordered table by its own keys moves every row to
      the end once and leaves the order as it was. */
  lemma ReorderSelf<T>(rows: seq<T>)
    ensures Reorder(rows, rows) == rows
  {
    ReorderToKeys(rows, rows);
  }
}

=== FILE: types.dfy ===
/** The records the tournament pages exchange with the document store: players
    of a group roster, matches of a group, and the state of one group. */
module Tournament {

  datatype Option<T> = None | Some(value: T)

  /** A roster entry. The four counters are derived: every standings pass
      overwrites them, so nothing may depend on the values a roster arrives with.
      An absent photo is the empty string. */
  datatype Player = Player(
    id: string,
    name: string,
    photo: string,
    played: nat,
    wins: nat,
    losses: nat,
    points: nat)

  /** A recorded match. Nothing forces `player1 != player2`, both ids to be on
      the roster, or `winner` to be one of the two: the engine copes with all. */
  datatype Match = Match(
    id: string,
    player1: string,
    player2: string,
    winner: string,
    game: string,
    timestamp: int)

  /** One group as the admin page holds it: the roster and the match collection
      in the order the store lists it. */
  datatype GroupState = GroupState(roster: seq<Player>, matches: seq<Match>)

  /** A group document as a page reads it: missing, or present with a
      `players` field that may be absent. */
  datatype GroupDoc = Missing | Present(players: Option<seq<Player>>)

  /** `data().players ?? []` of a present document. */
  function PlayersOf(doc: GroupDoc): (roster: seq<Player>)
    requires doc.Present?
    ensures doc.players.Some? ==> roster == doc.players.value
    ensures doc.players.None? ==> |roster| == 0
  {
    match doc.players
    case None => []
    case Some(players) => players
  }

  /** The ids of a roster, in roster order. */
  function Ids(roster: seq<Player>): (ids: seq<string>)
    ensures |ids| == |roster|
    ensures forall i :: 0 <= i < |roster| ==> ids[i] == roster[i].id
  {
    if |roster| == 0 then [] else [roster[0].id] + Ids(roster[1..])
  }

  /** The position `Array.prototype.find` (and `querySelector`) stops at: the
      first entry equal to `id`. */
  function FindIndex<T(==)>(ids: seq<T>, id: T): (r: Option<nat>)
    ensures r.Some? ==> r.value < |ids| && ids[r.value] == id
    ensures r.Some? ==> forall j :: 0 <= j < r.value ==> ids[j] != id
    ensures r.None? <==> id !in ids
  {
    if |ids| == 0 then None
    else if ids[0] == id then Some(0)
    else match FindIndex(ids[1..], id)
      case None => None
      case Some(k) => Some(k + 1)
  }

  /** The first roster index holding `id`, or None when no player has it. */
  function Resolve(roster: seq<Player>, id: string): Option<nat>
  {
    FindIndex(Ids(roster), id)
  }

  /** Whether position `k` is where a lookup by its own id lands: false for
      every later player that repeats an earlier id. */
  predicate IsFirst(roster: seq<Player>, k: nat)
    requires k < |roster|
  {
    Resolve(roster, roster[k].id) == Some(k)
  }

  /** Two rosters list the same players (ids, names, photos) in the same
      order; their counters may differ. */
  predicate SameIdentity(a: seq<Player>, b: seq<Player>)
  {
    && |a| == |b|
    && forall i :: 0 <= i < |a| ==>
         a[i].id == b[i].id && a[i].name == b[i].name && a[i].photo == b[i].photo
  }

  /** No two entries of `s` are equal. */
  predicate Distinct<T(==)>(s: seq<T>)
  {
    forall i, j :: 0 <= i < j < |s| ==> s[i] != s[j]
  }

  lemma SameIdentityIds(a: seq<Player>, b: seq<Player>)
    requires SameIdentity(a, b)
    ensures Ids(a) == Ids(b)
  {
    assert forall i :: 0 <= i < |a| ==> Ids(a)[i] == Ids(b)[i];
  }

  /** With distinct ids every position is the one a lookup lands on. */
  lemma DistinctIdsAreFirst(roster: seq<Player>, k: nat)
    requires Distinct(Ids(roster))
    requires k < |roster|
    ensures IsFirst(roster, k)
  {
    var ids := Ids(roster);
    assert ids[k] == roster[k].id;
    FindDistinct(ids, k);
  }

  lemma FindDistinct<T>(ids: seq<T>, k: nat)
    requires Distinct(ids)
    requires k < |ids|
    ensures FindIndex(ids, ids[k]) == Some(k)
  {
    var r := FindIndex(ids, ids[k]);
    assert r.Some?;
    assert !(r.value < k);
  }

  /** A list has as many different elements as entries exactly when no
      element repeats, which is what `new Set(ids).size` tests. */
  lemma {:induction false} DistinctCount<T>(s: seq<T>)
    ensures |set x | x in s| <= |s|
    ensures |set x | x in s| == |s| <==> Distinct(s)
    decreases |s|
  {
    if |s| > 0 {
      var rest := s[1..];
      DistinctCount(rest);
      var sr := set x | x in rest;
      assert (set x | x in s) == sr + {s[0]} by {
        assert s == [s[0]] + rest;
      }
      if s[0] in rest {
        assert (set x | x in s) == sr;
        var j :| 0 <= j < |rest| && rest[j] == s[0];
        assert s[0] == s[j + 1];
      } else {
        assert |set x | x in s| == |sr| + 1;
        if Distinct(rest) {
          forall i, j | 0 <= i < j < |s| ensures s[i] != s[j] {
            if i == 0 {
              assert s[j] == rest[j - 1];
            } else {
              assert s[i] == rest[i - 1] && s[j] == rest[j - 1];
            }
          }
        } else {
          var i, j :| 0 <= i < j < |rest| && rest[i] == rest[j];
          assert s[i + 1] == s[j + 1];
        }
      }
    }
  }

  /** Rearranging a list cannot make an element repeat. */
  lemma DistinctPermutation<T>(a: seq<T>, b: seq<T>)
    requires multiset(a) == multiset(b)
    requires Distinct(a)
    ensures Distinct(b)
  {
    DistinctCount(a);
    DistinctCount(b);
    assert forall x :: x in a <==> x in multiset(b);
    assert (set x | x in a) == (set x | x in b);
    assert |a| == |multiset(a)| == |b|;
  }

  lemma IdsRemove(s: seq<Player>, k: nat)
    requires k < |s|
    ensures Ids(s[..k] + s[k + 1..]) == Ids(s)[..k] + Ids(s)[k + 1..]
  {
    var r := s[..k] + s[k + 1..];
    var ids := Ids(s)[..k] + Ids(s)[k + 1..];
    assert |Ids(r)| == |ids|;
    forall i | 0 <= i < |r| ensures Ids(r)[i] == ids[i] {
      if i < k {
        assert r[i] == s[i] && ids[i] == Ids(s)[i];
      } else {
        assert r[i] == s[i + 1] && ids[i] == Ids(s)[i + 1];
      }
    }
  }

  /** A rearranged roster lists the same ids, each as often. */
  lemma {:induction false} IdsPermutation(a: seq<Player>, b: seq<Player>)
    requires multiset(a) == multiset(b)
    ensures multiset(Ids(a)) == multiset(Ids(b))
    decreases |a|
  {
    if |a| == 0 {
      assert |b| == |multiset(b)| == 0;
    } else {
      var k := FindInPermutation(a, b, 0);
      var rest := b[..k] + b[k + 1..];
      RemoveFirstFromPermutation(a, b, k);
      IdsPermutation(a[1..], rest);
      IdsRemove(b, k);
      SplitAt(Ids(b), k);
      assert Ids(a) == [a[0].id] + Ids(a[1..]);
    }
  }

  /** Sequence facts, proved once at a generic type: stated at the record
      types, where element equality compares strings, they cost far more. */
  lemma DropLastConcat<T>(a: seq<T>, b: seq<T>)
    requires |b| > 0
    ensures (a + b)[..|a + b| - 1] == a + b[..|b| - 1]
    ensures (a + b)[|a + b| - 1] == b[|b| - 1]
  {
  }

  lemma InsertAt<T>(s: seq<T>, at: nat, x: T)
    requires at <= |s|
    ensures |s[..at] + [x] + s[at..]| == |s| + 1
    ensures (s[..at] + [x] + s[at..])[at] == x
    ensures multiset(s[..at] + [x] + s[at..]) == multiset(s) + multiset{x}
  {
    assert s == s[..at] + s[at..];
  }

  lemma AppendAssoc<T>(a: seq<T>, b: seq<T>, c: seq<T>)
    ensures (a + b) + c == a + (b + c)
  {
  }

  lemma DropMiddle<T>(whole: seq<T>, x: seq<T>, y: seq<T>, z: seq<T>, a: seq<T>, b: seq<T>)
    requires whole == (x + y) + z
    requires x == a && |y| == 0 && z == b
    ensures whole == a + b
  {
  }

  lemma ConcatEmpty<T>(a: seq<T>, b: seq<T>)
    requires |b| == 0
    ensures a + b == a
  {
  }

  lemma DropLastAppend<T>(a: seq<T>, x: T)
    ensures (a + [x])[..|a|] == a
    ensures (a + [x])[|a|] == x
  {
  }

  lemma SplitAt<T>(s: seq<T>, k: nat)
    requires k < |s|
    ensures s == s[..k] + [s[k]] + s[k + 1..]
    ensures multiset(s) == multiset(s[..k]) + multiset{s[k]} + multiset(s[k + 1..])
    ensures multiset(s[..k] + s[k + 1..]) == multiset(s[..k]) + multiset(s[k + 1..])
  {
    assert s == s[..k] + [s[k]] + s[k + 1..];
  }

  lemma SplitAround<T>(s: seq<T>, k: nat)
    requires k < |s|
    ensures s == s[..k] + [s[k]] + s[k + 1..]
  {
  }

  lemma LastSplit<T>(s: seq<T>)
    requires |s| > 0
    ensures s == s[..|s| - 1] + [s[|s| - 1]]
    ensures multiset(s) == multiset(s[..|s| - 1]) + multiset{s[|s| - 1]}
  {
    assert s == s[..|s| - 1] + [s[|s| - 1]];
  }

  lemma RemoveLastFromPermutation<T>(a: seq<T>, b: seq<T>, k: nat)
    requires multiset(a) == multiset(b)
    requires |a| > 0 && k < |b| && a[|a| - 1] == b[k]
    ensures multiset(a[..|a| - 1]) == multiset(b[..k] + b[k + 1..])
  {
    RemoveFromPermutation(a, |a| - 1, b, k);
    assert a[..|a| - 1] + a[|a|..] == a[..|a| - 1];
  }

  lemma RemoveFirstFromPermutation<T>(a: seq<T>, b: seq<T>, k: nat)
    requires multiset(a) == multiset(b)
    requires |a| > 0 && k < |b| && a[0] == b[k]
    ensures multiset(a[1..]) == multiset(b[..k] + b[k + 1..])
  {
    RemoveFromPermutation(a, 0, b, k);
    assert a[..0] + a[1..] == a[1..];
  }

  /** An element of a permutation of `b` sits somewhere in `b`. */
  lemma FindInPermutation<T>(a: seq<T>, b: seq<T>, i: nat) returns (k: nat)
    requires multiset(a) == multiset(b)
    requires i < |a|
    ensures k < |b| && b[k] == a[i]
  {
    assert a[i] in multiset(a);
    assert a[i] in b;
    k :| 0 <= k < |b| && b[k] == a[i];
  }

  lemma RemoveAtTail<T>(s: seq<T>, k: nat)
    requires k < |s|
    ensures k == 0 ==> s[..k] + s[k + 1..] == s[1..]
    ensures k > 0 ==> s[..k] + s[k + 1..] == [s[0]] + (s[1..][..k - 1] + s[1..][k..])
  {
  }

  /** Taking the same element out of two permutations of each other leaves
      permutations of each other. */
  lemma RemoveFromPermutation<T>(a: seq<T>, i: nat, b: seq<T>, k: nat)
    requires multiset(a) == multiset(b)
    requires i < |a| && k < |b| && a[i] == b[k]
    ensures multiset(a[..i] + a[i + 1..]) == multiset(b[..k] + b[k + 1..])
  {
    assert a == a[..i] + [a[i]] + a[i + 1..];
    assert b == b[..k] + [b[k]] + b[k + 1..];
    var ra, rb := multiset(a[..i] + a[i + 1..]), multiset(b[..k] + b[k + 1..]);
    assert multiset(a) == ra + multiset{a[i]};
    assert multiset(b) == rb + multiset{a[i]};
    assert forall y :: ra[y] == multiset(a)[y] - multiset{a[i]}[y];
    assert forall y :: rb[y] == multiset(b)[y] - multiset{a[i]}[y];
  }
}
